=== FILE: README.md ===
# git-tag-semver-action, modelled in Dafny

This is a model of the release logic of `git-tag-semver-action`, a GitHub Action.
It is given a pull request, of which it reads only the base branch and the head repository, and does the following:

1. It checks out the pull request's base branch.
2. It lists the version tags (`v*`) of the head repository's remote.
3. It picks the current version: `v0.0.0` when there are no version tags, otherwise the tag of highest Semantic Versioning precedence. It fails when a listed line cannot be read, or when tags are listed but none is a version.
4. It increments that version by the configured release type (`patch`, `minor` or `major`).
5. It tags `HEAD` with the three tags of the new release, `vX`, `vX.Y` and `vX.Y.Z`, and then force-pushes the three of them.

The modules follow the program:

| module | file | models |
|---|---|---|
| `SemVer` | semver.dfy | the part of Semantic Versioning 2.0.0 the action uses, on normal versions `X.Y.Z`: parsing with an optional `v`, precedence (item 11), increment (items 6 to 8) |
| `VersionTags` | version.dfy | `getVersionTags` in src/version.ts |
| `Git` | git.dfy | the pure parts of `GitCli` in src/git.ts: argument vectors, output parsing, object-name validators, `branchNameFromRef` |
| `Backend` | backend.dfy | the `git` process: an oracle answering each call given the calls before it; a sequence of awaited calls stops at the first rejection |
| `Resolver` | resolver.dfy | the selection in `getLatestTag`, for any validity test and any total-preorder precedence, and its error message |
| `Handler` | handler.dfy | `getGitRemote`, `getLatestTag`, `tagAndPublish` and `handle` in src/handler.ts |
| `Strings`, `Seqs`, `Json`, `Wrappers` | strings.dfy, seqs.dfy, json.dfy, wrappers.dfy | JavaScript's `split`, `trim`, `\s` and `.`, decimal numerals, `filter`, `JSON.stringify` on string arrays, and `Option`/`Result` |

Two behaviours of the code worth stating on their own:

- `handle` returns an empty output map (src/handler.ts:48); it does not return the tags. `Handler.Handle` returns `map[]`.
- The first-release sentinel is the string `v0.0.0` (src/handler.ts:68). It parses to the version 0.0.0.

## Model

| member | source | states |
|---|---|---|
| `SemVer.Inc` | src/version.ts:13 | The new version is strictly above the current one. It is the least version that exceeds the current one at the release level and has zeros below that level. So `patch` bumps the patch number, `minor` bumps the minor number and zeroes the patch, and `major` bumps the major number and zeroes the rest. |
| `SemVer.ParseFormat` | src/version.ts:13-16 | The version string of a version parses back to it, with or without the leading `v`. |
| `SemVer.ParseIsCanonical` | src/version.ts:13 | A string is valid only if it is the rendering of its version, optionally prefixed with `v`. There are no leading zeros and no other spelling. |
| `Strings.ParseNumericInvertsRendering` | src/version.ts:13 | Reading a numeric identifier is the inverse of rendering a number: it reads `n` from a string exactly when the string is the rendering of `n`. |
| `SemVer.LessIsStrictTotalOrder` | src/handler.ts:82 | Precedence on normal versions is irreflexive, transitive and total. |
| `VersionTags.TagsOf` | src/version.ts:14-16 | The major tag is `v` + major. The minor tag is the major tag + `.` + minor. The full tag is the minor tag + `.` + patch, and the full tag parses back to the new version. |
| `VersionTags.GetVersionTags` | src/version.ts:7-19 | It fails, carrying the input, exactly when the current version does not parse. Otherwise the full tag names `Inc(current, type)`, which is strictly above the current version. |
| `VersionTags.TagsShareOneReleaseLine` | src/version.ts:14-16 | Each tag is a strict prefix of the next. The major and minor tags read back as the major and minor numbers of the full tag's version. |
| `VersionTags.PatchReleaseOfOneTwoThree` | test/unit/version.spec.ts:6-15 | `1.2.3` with `patch` gives `v1`, `v1.2`, `v1.2.4`. |
| `VersionTags.MinorReleaseOfOneTwoThree` | test/unit/version.spec.ts:16-25 | `1.2.3` with `minor` gives `v1`, `v1.3`, `v1.3.0`. |
| `VersionTags.MajorReleaseOfOneTwoThree` | test/unit/version.spec.ts:26-35 | `1.2.3` with `major` gives `v2`, `v2.0`, `v2.0.0`. |
| `VersionTags.FirstMinorRelease` | src/version.ts:13-18 | The sentinel `v0.0.0` with `minor` gives `v0`, `v0.1`, `v0.1.0`. |
| `Git.TagArgs` | src/git.ts:204-209 | The `tag` vector reads back as the requested tag, the target (default `HEAD`) and the force setting (default off). `--force` is appended exactly when forcing. |
| `Git.PushArgs` | src/git.ts:248-260 | The `push` vector starts with `push`. When the remote is not itself `--force` or `--delete`, it reads back as the force and deletion settings (default off), the remote (default `origin`) and the ref when one is given. |
| `Git.CheckoutArgs` | src/git.ts:228-231 | The `checkout` vector reads back as the requested ref. |
| `Git.LsRemoteTagsArgs` | src/git.ts:144-152 | The `ls-remote --tags --sort=refname` vector reads back as the remote (default `origin`) and the pattern (default `*`). |
| `Git.NonBlankLines` | src/git.ts:154 | Every kept line is one line of the output and has a non-whitespace character. Every such line of the output is kept. |
| `Git.TagNames` | src/git.ts:125 | Every listed name is a non-blank line of the output and holds no newline. Every non-blank line of the output is listed. |
| `Git.TagNamesSkipBlankLines` | src/git.ts:125 | For any lines, blank ones included, the output written line by line reads back as exactly its non-blank lines, in their order. |
| `Seqs.FilterKeepsOrder` | src/git.ts:125 | Two elements that `filter` keeps appear in its result in their input order. |
| `Git.TagNamesRoundTrip` | src/git.ts:125 | Listing non-blank names one per line reads back to the same names in the same order, with or without a final newline. |
| `Git.FirstEntryFrom` | src/git.ts:157-159 | It finds the leftmost position at or after `from` where the entry pattern matches, or reports that there is none. |
| `Git.MatchTagEntry` | src/git.ts:157-163 | A line matches `\S+\s+refs/tags/(\S+)` exactly when some position satisfies the pattern. The capture comes from the leftmost match, and it is a non-empty run without whitespace. |
| `Git.ReadAll` | src/git.ts:158-164 | It succeeds exactly when every entry can be read, giving one name per entry in order. Otherwise the error names the first entry that cannot be read. |
| `Git.RemoteTagNames` | src/git.ts:154-164 | It succeeds exactly when the entry pattern matches every non-blank line of the listing. It then gives one name per such line, in order, each the capture on its line. Otherwise the error names the first non-blank line the pattern does not match. |
| `Git.RemoteTagNamesSkipBlankLines` | src/git.ts:154-164 | For any lines, blank ones included, reading the listing written line by line is reading exactly its non-blank lines, in their order. |
| `Git.EntryLineParses` | src/git.ts:155-163 | The name read from `sha + TAB + "refs/tags/" + tag` is `tag`, when `sha` and `tag` are non-empty and have no whitespace. |
| `Git.EntryWithoutTagsRef` | src/git.ts:159-162 | A line with no `refs/tags/` cannot be read. |
| `Git.RemoteTagNamesRoundTrip` | src/git.ts:154-164 | An `ls-remote` listing of well-formed lines reads back as its tag names in listing order, with or without a final newline. |
| `Git.BranchNameFromRef` | src/git.ts:333-342 | It fails, carrying the ref, exactly when `refs/heads/` does not occur. Otherwise it returns the rest of the line after the leftmost occurrence. |
| `Git.BranchNameRoundTrip` | src/git.ts:333-341 | `refs/heads/` + `b` gives `b` when `b` has no line terminator. |
| `Git.RemoteTagExists` | src/git.ts:180-186 | The tag exists exactly when the output has a non-whitespace character. |
| `Git.IsTreeDirty` | src/git.ts:43-44 | Every entry `status --porcelain` lists makes the tree dirty, and a clean tree is one for which git printed no line at all, not even a blank one. |
| `Git.DirtyStatusVersusTagOutput` | src/git.ts:44 | `isTreeDirty` counts any output at all, while `remoteTagExists` (src/git.ts:186) needs a non-whitespace character. So a remote tag's output always counts as dirty, and the two readings differ exactly on non-empty, whitespace-only output. |
| `Git.RemoteBranchHeadCommit` | src/git.ts:80 | The commit is the longest tab-free prefix of the output. It is followed by a tab, or it is the whole output. |
| `Git.HeadCommitOfListing` | src/git.ts:72-80 | For a line `sha + TAB + rest` with a tab-free `sha`, the commit is `sha`. |
| `Git.MatchesHexRun` | src/git.ts:289-291 | `^[0-9a-fA-F]{min,max}$` matches exactly the strings of `min` to `max` hexadecimal digits. |
| `Git.IsSha` | src/git.ts:302-304 | It holds exactly for 40 hexadecimal digits. |
| `Git.IsPartialSha` | src/git.ts:317-319 | It holds exactly for 4 to 40 hexadecimal digits. |
| `Git.ShaIsPartialSha` | src/git.ts:289-319 | Every full object name is a partial one. |
| `Backend.RunAll` | src/handler.ts:88-99 | Calls are made one after another. The calls made are a prefix of those requested, and all of them succeeded except, when the run failed, the last. That last call's rejection is the reported failure. |
| `Backend.ArgsReadBack` | src/handler.ts:54-98 | Each call's vector asks `git` for exactly that call. Checkout asks for its ref and the listing for its remote and pattern. Tagging asks for its tag on `HEAD` with its force setting. Pushing asks for its remote, force setting and tag, and does not delete. |
| `Backend.ArgsDetermineEvent` | src/handler.ts:54-98 | Two calls with the same argument vector are the same call, unless one pushes to a remote named `--force` or `--delete`. |
| `Resolver.FirstMaximal` | src/handler.ts:82-83 | Index 0 after the stable descending sort is an element that every element is at most. Every element before it is strictly below it. |
| `Resolver.LatestTag` | src/handler.ts:67-83 | No tags gives `v0.0.0`. It is an error, carrying the raw list, exactly when tags exist and none is valid. Otherwise the result is a listed, valid tag at least every valid listed tag. |
| `Resolver.InvalidTagIsIgnored` | src/handler.ts:72 | While a valid tag remains, inserting an invalid tag anywhere does not change the result. |
| `Resolver.MessageShowsEveryTag` | src/handler.ts:74-78 | The message of the error (`Resolver.Message`) contains every found tag as a JSON string literal. |
| `Resolver.MessageShowsPlainTag` | src/handler.ts:74-78 | A tag without quotes, backslashes or control characters appears verbatim between double quotes in the message. |
| `Json.EscapePlain` | src/handler.ts:75-77 | `JSON.stringify` (`Json.Escape`, `Json.Quote`) leaves a string without quotes, backslashes or control characters unchanged inside its quotes. |
| `Json.ItemsShowEveryElement` | src/handler.ts:75-77 | The JSON array of strings (`Json.StringArray`) contains each element's string literal. |
| `Handler.SplitRemote` | src/handler.ts:102-105 | Whatever it extracts rebuilds the URL it was given. |
| `Handler.RemoteRoundTrip` | src/handler.ts:102-105 | The token (when it has no `@`) and the repository are recovered from the URL `getGitRemote` builds (`Handler.GitRemote`), `https://TOKEN@github.com/REPO.git`. |
| `Handler.PrecedenceIsTotalPreorder` | src/handler.ts:82 | Semantic Versioning precedence on tag names is total and transitive, as the sort needs. |
| `Handler.CurrentVersionTag` | src/handler.ts:67-83 | For the action's validity test and precedence: the result is always a valid version, `v0.0.0` when no tags are listed, and otherwise a listed tag at least every valid listed version. It is an error exactly when tags are listed and none is valid. |
| `Handler.GetLatestTag` | src/handler.ts:57-84 | When it does not throw, the current version is a valid version. |
| `Handler.LatestTagOfListing` | src/handler.ts:57-84 | It gives `v0.0.0` when the listing has no non-blank line. Otherwise it gives the name read from one of the lines, and that name is at least every version named by a line. It throws exactly when some line cannot be read, or when lines were listed but none names a version. An unreadable listing's error names the first line that cannot be read. |
| `Handler.PublishPlanShape` | src/handler.ts:86-100 | The calls `tagAndPublish` makes (`Handler.PublishPlan`): the first `n` are tagging calls and the next `n` are pushes, for `n` tags, so every tagging comes before every push. Every call is forced, and every push goes to the same remote. Both passes follow the order of the tags. |
| `Handler.PlanOfTriple` | src/handler.ts:86-100 | For a tag triple, the calls are exactly: tag the major, minor and full tags, then push the major, minor and full tags, all forced. |
| `Handler.PushOnlyAfterAllTagged` | src/handler.ts:88-99 | In a run of the plan (`Handler.Publish`), if any push was made, every tag had already been created, successfully. |
| `Handler.RunOutcome` | src/handler.ts:86-100 | Either every call was made and succeeded, returning no outputs, or the trace ends with the first rejected call, whose rejection is the error. |
| `Handler.Release` | src/handler.ts:42-47 | After the listing, a success made six calls and returns an empty map. A `git` error is the rejection of the last call made. |
| `Handler.ReleasePublishesNextTags` | src/handler.ts:42-47 | The six calls of a successful release are exactly the publishing calls for the tags of the version after the one chosen from the listing. |
| `Handler.Handle` | src/handler.ts:40-49 | The first call checks out the base ref, and it is the only call when it fails. The second lists the remote's `v*` tags. A success made eight calls and returns an empty map. A `git` error is the rejection of the last call made. |
| `Handler.HandleAfterListing` | src/handler.ts:40-49 | Once the checkout succeeded and the listing was read, the rest of the workflow is the release from that listing, pushing to the head repository's remote. |
| `Handler.IncrementNeverThrows` | src/handler.ts:42-46 | The version handed to `getVersionTags` is always valid, so `checkNotNull` never throws. |
| `Handler.SuccessfulTrace` | src/handler.ts:40-49 | A success read the listing, chose the current version and published the plan of the next release's tags. |
| `Handler.ReleaseOutranksRemoteVersions` | src/handler.ts:40-49 | The full tag pushed last by a success is valid and strictly above every valid version tag the remote listed. |
| `Handler.BadListingStopsBeforeTagging` | src/handler.ts:57-79 | An unreadable listing, or tags none of which is a version, ends the run after the listing, before anything is tagged or pushed. |
| `Handler.EmptyListing` | src/git.ts:154 | An empty listing reads as no tags. |
| `Handler.AcceptedCallsAllRun` | src/handler.ts:86-100 | When `git` accepts every call, every planned call is made and the run succeeds. |
| `Handler.FirstReleaseOfRepository` | src/handler.ts:65-69 | With no version tags on the remote, a minor release tags and pushes `v0`, `v0.1` and `v0.1.0`. |

## Left out

- src/index.ts: reading the runner's inputs, setting outputs and failure, and error formatting are runner plumbing.
- `BaseCli.runAsync` and process spawning (cli.js is not part of this model): `git` is the `Backend` oracle.
- Backend: the oracle answers calls (`Event`s), not argument vectors. `Backend.Args` gives the vector of each call, and different calls have different vectors (`Backend.ArgsDetermineEvent`), so an oracle over vectors is one over calls composed with `Args`. A push to a remote spelled `--force` or `--delete` is the exception.
- SemVer.Parse: pre-release and build metadata, `semver`'s trimming of surrounding whitespace, its 256-character limit and its `MAX_SAFE_INTEGER` bound on numbers are not modelled. Only `v?X.Y.Z` with numeric identifiers is a version here. So the resolver drops pre-release and build tags as not valid, where `getLatestTag` ranks them: `["v1.2.3", "v2.0.0-rc.1"]` resolves to `v1.2.3` in the model and to `v2.0.0-rc.1` in the source.
- Resolver.LatestTag: among tags of equal precedence (for example `v1.2.3` and `1.2.3`), the model picks the first in listing order, as the stable sort does. The contract promises only a maximal one.
- getRoot, getUser, getCurrentBranchName, getCurrentBranchHeadCommit, getRemoteUrl, pull and deleteTag in src/git.ts return `git`'s output unchanged or only run a command, so they have no logic to model.
- The argument vectors of `getTags` (src/git.ts:119-124) and `remoteTagExists` (src/git.ts:180-184): the workflow makes neither call, so only how their output is read is modelled.
- getCurrentRepositoryName (src/git.ts:273-276): it depends on Node's `path.basename`.
- Logging (`core.info`, `core.debug`, the `isDebug` branch), promises, real network pushes and concurrent publishers.
- The pull request payload: only `base.ref` and `head.repo.full_name` are read, as plain strings.

=== FILE: backend.dfy ===
/**
 * The `git` process as the workflow sees it (`BaseCli.runAsync`): every call
 * is an argument vector answered with standard output or a failure. The
 * process is an oracle; what the workflow asks of it is recorded as a trace.
 */
module Backend {
  import opened Wrappers
  import Git

  /** One call the workflow makes on the wrapper. */
  datatype Event =
    | Checkout(ref: string)
    | ListRemoteTags(remote: string, pattern: string)
    | Tag(name: string, force: bool)
    | Push(remote: string, name: string, force: bool)

  /** The argument vector each call hands to `git`; unset options take the wrapper's defaults. */
  function Args(e: Event): Git.Argv {
    match e
    case Checkout(ref) => Git.CheckoutArgs(ref)
    case ListRemoteTags(remote, pattern) => Git.LsRemoteTagsArgs(Some(remote), Some(pattern))
    case Tag(name, force) => Git.TagArgs(name, None, Some(force))
    case Push(remote, name, force) => Git.PushArgs(Some(force), None, Some(remote), Some(name))
  }

  /**
   * Each call's argument vector asks `git` for exactly that call: tagging
   * targets `HEAD`, and a push does not delete.
   */
  lemma ArgsReadBack(e: Event)
    ensures match e
      case Checkout(ref) => Git.ReadCheckoutArgs(Args(e)) == Some(ref)
      case ListRemoteTags(remote, pattern) => Git.ReadLsRemoteTagsArgs(Args(e)) == Some(Git.LsRemoteRequest(remote, pattern))
      case Tag(name, force) => Git.ReadTagArgs(Args(e)) == Some(Git.TagRequest(name, Git.DefaultRef, force))
      case Push(remote, name, force) =>
        !Git.IsPushFlag(remote) ==> Git.ReadPushArgs(Args(e)) == Some(Git.PushRequest(force, false, remote, Some(name)))
  {
  }

  /** A push whose remote could be read as a flag. */
  predicate PushesToFlag(e: Event) {
    e.Push? && Git.IsPushFlag(e.remote)
  }

  /**
   * Different calls hand `git` different argument vectors (pushes to a remote
   * spelled like a flag aside), so an oracle over argument vectors is one
   * over calls.
   */
  lemma ArgsDetermineEvent(e1: Event, e2: Event)
    requires !PushesToFlag(e1) && !PushesToFlag(e2)
    requires Args(e1) == Args(e2)
    ensures e1 == e2
  {
    ArgsReadBack(e1);
    ArgsReadBack(e2);
  }

  /** What `runAsync` yields: the captured standard output, or the failure it rejects with. */
  datatype Reply = Stdout(text: string) | Failed(message: string)

  /**
   * The `git` process: the reply to a call, given the calls made before it
   * (the repository and the remote change as calls are made). The process
   * receives `Args(e)` for a call `e`; an oracle over argument vectors is
   * one over calls composed with `Args`.
   */
  type Oracle = (seq<Event>, Event) -> Reply

  /** A rejected call: its argument vector and the process's message. */
  datatype Failure = Failure(args: Git.Argv, message: string)

  /** The calls that were made (a prefix of those asked for), and the failure that ended them early, if any. */
  datatype Run = Run(executed: seq<Event>, failure: Option<Failure>)

  /** The `i`-th call of `todo`, made after `done` and the calls of `todo` before it, succeeded. */
  ghost predicate SucceededAt(git: Oracle, done: seq<Event>, todo: seq<Event>, i: nat)
    requires i < |todo|
  {
    git(done + todo[..i], todo[i]).Stdout?
  }

  /**
   * Awaiting the calls of `todo` one after the other, after those of `done`:
   * the calls made are a prefix of `todo`; all of them succeeded except,
   * when the run failed, the last one, whose rejection is the failure reported.
   */
  function RunAll(git: Oracle, done: seq<Event>, todo: seq<Event>): (r: Run)
    ensures |r.executed| <= |todo| && r.executed == todo[..|r.executed|]
    ensures r.failure.None? ==> r.executed == todo
    ensures r.failure.None? ==> forall i :: 0 <= i < |todo| ==> SucceededAt(git, done, todo, i)
    ensures r.failure.Some? ==> |r.executed| > 0
    ensures r.failure.Some? ==> forall i :: 0 <= i < |r.executed| - 1 ==> SucceededAt(git, done, todo, i)
    ensures r.failure.Some? ==>
      var last := |r.executed| - 1;
      var reply := git(done + todo[..last], todo[last]);
      reply.Failed? && r.failure.value == Failure(Args(todo[last]), reply.message)
    decreases |todo|
  {
    if |todo| == 0 then Run([], None)
    else
      match git(done, todo[0])
      case Failed(message) =>
        assert done + todo[..0] == done;
        Run([todo[0]], Some(Failure(Args(todo[0]), message)))
      case Stdout(_) =>
        var rest := RunAll(git, done + [todo[0]], todo[1..]);
        ShiftedHistories(git, done, todo);
        assert SucceededAt(git, done, todo, 0) by {
          assert done + todo[..0] == done;
        }
        assert [todo[0]] + rest.executed == todo[..|rest.executed| + 1];
        Run([todo[0]] + rest.executed, rest.failure)
  }

  /** Making the first call of `todo`, then the rest, sees the same histories as making all of `todo`. */
  lemma ShiftedHistories(git: Oracle, done: seq<Event>, todo: seq<Event>)
    requires |todo| > 0
    ensures forall i :: 1 <= i < |todo| ==>
      && (SucceededAt(git, done + [todo[0]], todo[1..], i - 1) <==> SucceededAt(git, done, todo, i))
      && git((done + [todo[0]]) + todo[1..][..i - 1], todo[1..][i - 1]) == git(done + todo[..i], todo[i])
  {
    forall i | 1 <= i < |todo|
      ensures (done + [todo[0]]) + todo[1..][..i - 1] == done + todo[..i]
    {
      assert todo[..i] == [todo[0]] + todo[1..][..i - 1];
    }
  }
}

=== FILE: git.dfy ===
/**
 * The pure parts of the git command-line wrapper (`GitCli`): the argument
 * vectors it hands to `git`, and how it reads the text `git` prints back.
 * Running `git` itself is the `Backend` oracle.
 */
module Git {
  import opened Wrappers
  import opened Strings
  import Seqs

  /** The argument vector of one `git` invocation, without the `git` itself. */
  type Argv = seq<string>

  /** The errors the wrapper throws itself (as opposed to errors of the `git` process). */
  datatype GitError =
    | UnexpectedRemoteTagEntry(entry: string)
    | InvalidBranchRef(ref: string)

  const DefaultRemote := "origin"
  const DefaultRef := "HEAD"
  const DefaultPattern := "*"
  const TagsRefPrefix := "refs/tags/"
  const HeadsRefPrefix := "refs/heads/"
  const ForceFlag := "--force"
  const DeleteFlag := "--delete"

  // ---------------------------------------------------------------------------
  // Argument vectors
  // ---------------------------------------------------------------------------

  /** The ref a `git checkout` argument vector asks for. */
  function ReadCheckoutArgs(args: Argv): Option<string> {
    if |args| == 2 && args[0] == "checkout" then Some(args[1]) else None
  }

  /** `checkout`: the argument vector asks for exactly the given ref. */
  function CheckoutArgs(ref: string): (args: Argv)
    ensures ReadCheckoutArgs(args) == Some(ref)
  {
    ["checkout", ref]
  }

  /** What a `git ls-remote --tags` argument vector asks for. */
  datatype LsRemoteRequest = LsRemoteRequest(remote: string, pattern: string)

  /** The layout of a tag listing request: sorted by ref name, then the remote and the pattern. */
  function ReadLsRemoteTagsArgs(args: Argv): Option<LsRemoteRequest> {
    if |args| == 5 && args[..3] == ["ls-remote", "--tags", "--sort=refname"] then Some(LsRemoteRequest(args[3], args[4]))
    else None
  }

  /**
   * `getRemoteTags`: the argument vector lists tags sorted by ref name, and
   * asks for exactly the remote (`origin` when absent) and the pattern (`*`
   * when absent).
   */
  function LsRemoteTagsArgs(remote: Option<string>, pattern: Option<string>): (args: Argv)
    ensures ReadLsRemoteTagsArgs(args) == Some(LsRemoteRequest(remote.GetOr(DefaultRemote), pattern.GetOr(DefaultPattern)))
  {
    var args := ["ls-remote", "--tags", "--sort=refname", remote.GetOr(DefaultRemote), pattern.GetOr(DefaultPattern)];
    assert args[..3] == ["ls-remote", "--tags", "--sort=refname"];
    args
  }

  /** What a `git tag` argument vector asks for. */
  datatype TagRequest = TagRequest(tag: string, ref: string, force: bool)

  /** The layout of a `git tag` argument vector: name, target, then `--force` when forcing. */
  function ReadTagArgs(args: Argv): Option<TagRequest> {
    if |args| == 3 && args[0] == "tag" then Some(TagRequest(args[1], args[2], false))
    else if |args| == 4 && args[0] == "tag" && args[3] == ForceFlag then Some(TagRequest(args[1], args[2], true))
    else None
  }

  /**
   * `tag`: the argument vector asks for exactly the tag, the target (`HEAD`
   * when none is given) and the force setting (off when none is given).
   */
  function TagArgs(tag: string, ref: Option<string>, force: Option<bool>): (args: Argv)
    ensures ReadTagArgs(args) == Some(TagRequest(tag, ref.GetOr(DefaultRef), force.GetOr(false)))
  {
    var args := ["tag", tag, ref.GetOr(DefaultRef)];
    if force.GetOr(false) then args + [ForceFlag] else args
  }

  /** What a `git push` argument vector asks for. */
  datatype PushRequest = PushRequest(force: bool, deletion: bool, remote: string, ref: Option<string>)

  predicate IsPushFlag(s: string) {
    s == ForceFlag || s == DeleteFlag
  }

  /** The layout of a `git push` argument vector: flags, then the remote, then at most one ref. */
  function ReadPushArgs(args: Argv): Option<PushRequest> {
    if |args| < 2 || args[0] != "push" then None
    else
      var force := args[1] == ForceFlag;
      var i := if force then 2 else 1;
      var deletion := i < |args| && args[i] == DeleteFlag;
      var j := if deletion then i + 1 else i;
      if j + 1 == |args| then Some(PushRequest(force, deletion, args[j], None))
      else if j + 2 == |args| then Some(PushRequest(force, deletion, args[j], Some(args[j + 1])))
      else None
  }

  /**
   * `push`: the argument vector asks for exactly the given force and deletion
   * settings (off when absent), the remote (`origin` when absent) and the ref
   * when one is given, provided the remote cannot be mistaken for a flag.
   */
  function PushArgs(force: Option<bool>, deletion: Option<bool>, remote: Option<string>, ref: Option<string>): (args: Argv)
    ensures !IsPushFlag(remote.GetOr(DefaultRemote)) ==>
      ReadPushArgs(args) == Some(PushRequest(force.GetOr(false), deletion.GetOr(false), remote.GetOr(DefaultRemote), ref))
    ensures |args| >= 2 && args[0] == "push"
  {
    var flags := (if force.GetOr(false) then [ForceFlag] else []) + (if deletion.GetOr(false) then [DeleteFlag] else []);
    var args := ["push"] + flags + [remote.GetOr(DefaultRemote)];
    if ref.Some? then args + [ref.value] else args
  }

  // ---------------------------------------------------------------------------
  // Reading `git`'s output
  // ---------------------------------------------------------------------------

  predicate IsNonBlank(s: string) {
    !IsBlank(s)
  }

  /** `split("\n")` followed by dropping the lines that `trim` to nothing. */
  function NonBlankLines(text: string): (lines: seq<string>)
    ensures forall i :: 0 <= i < |lines| ==> !AllWhitespace(lines[i]) && '\n' !in lines[i]
    ensures forall i :: 0 <= i < |lines| ==> lines[i] in Split(text, '\n')
    ensures var all := Split(text, '\n'); forall i :: 0 <= i < |all| && !AllWhitespace(all[i]) ==> all[i] in lines
  {
    Seqs.Filter(Split(text, '\n'), IsNonBlank)
  }

  /** `getTags`: the listed tag names, one per non-blank line, in the order listed. */
  function TagNames(stdout: string): (tags: seq<string>)
    ensures forall i :: 0 <= i < |tags| ==> !AllWhitespace(tags[i]) && '\n' !in tags[i]
    ensures forall i :: 0 <= i < |tags| ==> tags[i] in Split(stdout, '\n')
    ensures var all := Split(stdout, '\n'); forall i :: 0 <= i < |all| && !AllWhitespace(all[i]) ==> all[i] in tags
  {
    NonBlankLines(stdout)
  }

  /**
   * The lines of a text written line by line, blank ones included, are read
   * back as its non-blank lines, in order (`Seqs.FilterKeepsOrder`).
   */
  lemma NonBlankLinesOfJoin(lines: seq<string>)
    requires forall i :: 0 <= i < |lines| ==> '\n' !in lines[i]
    ensures NonBlankLines(Join(lines, '\n')) == Seqs.Filter(lines, IsNonBlank)
  {
    if |lines| == 0 {
      assert Split("", '\n') == [""];
      BlankLineDropped();
    } else {
      SplitJoin(lines, '\n');
    }
  }

  /** `getTags` on a listing with blank lines in it gives the names of the other lines, in order. */
  lemma TagNamesSkipBlankLines(lines: seq<string>)
    requires forall i :: 0 <= i < |lines| ==> '\n' !in lines[i]
    ensures TagNames(Join(lines, '\n')) == Seqs.Filter(lines, IsNonBlank)
  {
    NonBlankLinesOfJoin(lines);
  }

  /**
   * Listing names one per line, with or without a final newline, and reading
   * the listing back gives the names, in order.
   */
  lemma {:induction false} TagNamesRoundTrip(names: seq<string>)
    requires forall i :: 0 <= i < |names| ==> !AllWhitespace(names[i]) && '\n' !in names[i]
    ensures TagNames(Join(names, '\n')) == names
    ensures TagNames(Join(names, '\n') + "\n") == names
  {
    if |names| == 0 {
      EmptyTagListing();
    } else {
      SplitJoin(names, '\n');
      Seqs.FilterAll(names, IsNonBlank);
      TrailingNewlineIgnored(names);
    }
  }

  /** A final newline adds one empty line, which is dropped. */
  lemma TrailingNewlineIgnored(names: seq<string>)
    requires |names| > 0
    requires forall i :: 0 <= i < |names| ==> !AllWhitespace(names[i]) && '\n' !in names[i]
    ensures TagNames(Join(names, '\n') + "\n") == Seqs.Filter(names, IsNonBlank)
  {
    var text := Join(names, '\n') + "\n";
    var lines := names + [""];
    JoinTrailingEmpty(names, '\n');
    assert text == Join(lines, '\n');
    forall i | 0 <= i < |lines|
      ensures '\n' !in lines[i]
    {
      if i < |names| {
        assert lines[i] == names[i];
      }
    }
    SplitJoin(lines, '\n');
    Seqs.FilterConcat(names, [""], IsNonBlank);
    BlankLineDropped();
    assert TagNames(text) == Seqs.Filter(lines, IsNonBlank);
  }

  lemma BlankLineDropped()
    ensures Seqs.Filter([""], IsNonBlank) == []
  {
    assert !IsNonBlank("");
  }

  /** An empty listing, with or without its newline, lists nothing. */
  lemma EmptyTagListing()
    ensures TagNames("") == [] && TagNames("\n") == []
  {
    assert Split("", '\n') == [""];
    assert Split("\n", '\n') == ["", ""];
    BlankLineDropped();
    assert Seqs.Filter(["", ""], IsNonBlank) == [];
  }

  /**
   * Where the entry pattern `\S+\s+refs/tags/(\S+)` can match with its
   * `refs/tags/` at `k`: a run of whitespace ends right before `k`, something
   * other than whitespace comes before that run, and the capture is not empty.
   */
  predicate EntryAt(line: string, k: nat) {
    && 1 <= k
    && OccursAt(line, TagsRefPrefix, k)
    && k + |TagsRefPrefix| < |line|
    && !IsWhitespace(line[k + |TagsRefPrefix|])
    && IsWhitespace(line[k - 1])
    && !AllWhitespace(line[..k])
  }

  /** A regular-expression search reports the leftmost match. */
  predicate IsLeftmostEntry(line: string, k: nat) {
    EntryAt(line, k) && forall j: nat :: j < k ==> !EntryAt(line, j)
  }

  /** The capture `(\S+)` of a match whose `refs/tags/` is at `k`. */
  function CaptureAt(line: string, k: nat): string
    requires k + |TagsRefPrefix| <= |line|
  {
    Token(line[k + |TagsRefPrefix|..])
  }

  function FirstEntryFrom(line: string, from: nat): (r: Option<nat>)
    ensures r.Some? ==> from <= r.value && EntryAt(line, r.value)
    ensures r.Some? ==> forall k: nat :: from <= k < r.value ==> !EntryAt(line, k)
    ensures r.None? ==> forall k: nat :: from <= k ==> !EntryAt(line, k)
    decreases |line| - from
  {
    if from >= |line| then None
    else if EntryAt(line, from) then Some(from)
    else FirstEntryFrom(line, from + 1)
  }

  /** `entryRegex.exec(entry)`, reduced to its capture: the name after the leftmost `refs/tags/` match. */
  function MatchTagEntry(line: string): (r: Option<string>)
    ensures r.None? <==> forall k: nat :: !EntryAt(line, k)
    ensures r.Some? ==> exists k: nat :: IsLeftmostEntry(line, k) && r.value == CaptureAt(line, k)
    ensures r.Some? ==> |r.value| > 0 && NoWhitespace(r.value)
  {
    match FirstEntryFrom(line, 0)
    case None => None
    case Some(k) =>
      var name := CaptureAt(line, k);
      assert IsLeftmostEntry(line, k);
      assert name != "" by {
        assert line[k + |TagsRefPrefix|..][0] == line[k + |TagsRefPrefix|];
      }
      Some(name)
  }

  /**
   * `entries.map(...)` with a reader that throws: every entry must be read;
   * the first one that cannot be read is the error.
   */
  function ReadAll(entries: seq<string>, read: string -> Option<string>): (r: Result<seq<string>, GitError>)
    ensures r.Ok? <==> forall i :: 0 <= i < |entries| ==> read(entries[i]).Some?
    ensures r.Ok? ==> |r.value| == |entries|
    ensures r.Ok? ==> forall i :: 0 <= i < |entries| ==> read(entries[i]) == Some(r.value[i])
    ensures r.Err? ==> exists i :: (
      && 0 <= i < |entries|
      && r.error == UnexpectedRemoteTagEntry(entries[i])
      && read(entries[i]).None?
      && forall j :: 0 <= j < i ==> read(entries[j]).Some?)
    decreases |entries|
  {
    if |entries| == 0 then Ok([])
    else
      match read(entries[0])
      case None => Err(UnexpectedRemoteTagEntry(entries[0]))
      case Some(name) =>
        match ReadAll(entries[1..], read)
        case Err(e) =>
          assert forall i :: 0 <= i < |entries| - 1 ==> entries[1..][i] == entries[i + 1];
          Err(e)
        case Ok(names) => Ok([name] + names)
  }

  /** Entries that can all be read read as their readings, in order. */
  lemma ReadAllSucceeds(entries: seq<string>, read: string -> Option<string>, names: seq<string>)
    requires |entries| == |names|
    requires forall i :: 0 <= i < |entries| ==> read(entries[i]) == Some(names[i])
    ensures ReadAll(entries, read) == Ok(names)
  {
    var r := ReadAll(entries, read);
    assert r.Ok?;
    forall i | 0 <= i < |entries|
      ensures r.value[i] == names[i]
    {
      assert read(entries[i]) == Some(r.value[i]);
    }
    assert r.value == names;
  }

  /**
   * `getRemoteTags`: one tag name per non-blank line of the `ls-remote`
   * listing, in order, each the capture of the entry pattern on its line;
   * the first non-blank line the pattern does not match is the error.
   */
  function RemoteTagNames(stdout: string): (r: Result<seq<string>, GitError>)
    ensures var lines := NonBlankLines(stdout);
      r.Ok? <==> forall i :: 0 <= i < |lines| ==> MatchTagEntry(lines[i]).Some?
    ensures var lines := NonBlankLines(stdout);
      r.Ok? ==> |r.value| == |lines| && forall i :: 0 <= i < |lines| ==> MatchTagEntry(lines[i]) == Some(r.value[i])
    ensures var lines := NonBlankLines(stdout);
      r.Err? ==> exists i :: (
        && 0 <= i < |lines|
        && r.error == UnexpectedRemoteTagEntry(lines[i])
        && MatchTagEntry(lines[i]).None?
        && forall j :: 0 <= j < i ==> MatchTagEntry(lines[j]).Some?)
  {
    ReadAll(NonBlankLines(stdout), MatchTagEntry)
  }

  /** `getRemoteTags` on a listing with blank lines in it reads the other lines, in order. */
  lemma RemoteTagNamesSkipBlankLines(lines: seq<string>)
    requires forall i :: 0 <= i < |lines| ==> '\n' !in lines[i]
    ensures RemoteTagNames(Join(lines, '\n')) == ReadAll(Seqs.Filter(lines, IsNonBlank), MatchTagEntry)
  {
    NonBlankLinesOfJoin(lines);
  }

  /** A line of `ls-remote` output: object name, tab, `refs/tags/` and the tag name. */
  datatype RemoteRef = RemoteRef(sha: string, tag: string)

  predicate WellFormedRef(r: RemoteRef) {
    |r.sha| > 0 && |r.tag| > 0 && NoWhitespace(r.sha) && NoWhitespace(r.tag)
  }

  function ListingLine(r: RemoteRef): string {
    r.sha + "\t" + TagsRefPrefix + r.tag
  }

  /** The name in a well-formed `ls-remote` line is its tag name. */
  lemma EntryLineParses(r: RemoteRef)
    requires WellFormedRef(r)
    ensures MatchTagEntry(ListingLine(r)) == Some(r.tag)
  {
    var line := ListingLine(r);
    var k := |r.sha| + 1;
    assert line[k..k + |TagsRefPrefix|] == TagsRefPrefix;
    assert line[k - 1] == '\t';
    assert line[k + |TagsRefPrefix|] == r.tag[0];
    assert line[..k][0] == r.sha[0];
    assert EntryAt(line, k);
    forall j: nat | j < k
      ensures !EntryAt(line, j)
    {
      if 1 <= j {
        assert line[j - 1] == r.sha[j - 1];
      }
    }
    var first := FirstEntryFrom(line, 0);
    assert first == Some(k);
    assert line[k + |TagsRefPrefix|..] == r.tag;
  }

  /** A line without `refs/tags/` in it cannot be read. */
  lemma EntryWithoutTagsRef(line: string)
    requires !Contains(line, TagsRefPrefix)
    ensures MatchTagEntry(line).None?
  {
  }

  function ListingLines(refs: seq<RemoteRef>): seq<string> {
    seq(|refs|, i requires 0 <= i < |refs| => ListingLine(refs[i]))
  }

  function TagsOfRefs(refs: seq<RemoteRef>): seq<string> {
    seq(|refs|, i requires 0 <= i < |refs| => refs[i].tag)
  }

  /** A well-formed listing line is a single non-blank line. */
  lemma ListingLineIsOneLine(r: RemoteRef)
    requires WellFormedRef(r)
    ensures !AllWhitespace(ListingLine(r)) && '\n' !in ListingLine(r)
  {
    var line := ListingLine(r);
    assert line[0] == r.sha[0];
    assert line == r.sha + ("\t" + TagsRefPrefix) + r.tag;
    assert '\n' !in r.sha;
    assert '\n' !in r.tag;
  }

  /** Reading back an `ls-remote` listing of well-formed lines gives its tag names, in listing order. */
  lemma RemoteTagNamesRoundTrip(refs: seq<RemoteRef>)
    requires forall i :: 0 <= i < |refs| ==> WellFormedRef(refs[i])
    ensures RemoteTagNames(Join(ListingLines(refs), '\n')) == Ok(TagsOfRefs(refs))
    ensures RemoteTagNames(Join(ListingLines(refs), '\n') + "\n") == Ok(TagsOfRefs(refs))
  {
    var lines := ListingLines(refs);
    forall i | 0 <= i < |lines|
      ensures !AllWhitespace(lines[i]) && '\n' !in lines[i]
    {
      ListingLineIsOneLine(refs[i]);
    }
    TagNamesRoundTrip(lines);
    var tags := TagsOfRefs(refs);
    forall i | 0 <= i < |lines|
      ensures MatchTagEntry(lines[i]) == Some(tags[i])
    {
      EntryLineParses(refs[i]);
    }
    ReadAllSucceeds(lines, MatchTagEntry, tags);
  }

  /** `branchNameFromRef`: the rest of the line after the leftmost `refs/heads/`; an error when there is none. */
  function BranchNameFromRef(ref: string): (r: Result<string, GitError>)
    ensures r.Err? <==> !Contains(ref, HeadsRefPrefix)
    ensures r.Err? ==> r.error == InvalidBranchRef(ref)
    ensures r.Ok? ==> exists k: nat ::
      && OccursAt(ref, HeadsRefPrefix, k)
      && (forall j: nat :: j < k ==> !OccursAt(ref, HeadsRefPrefix, j))
      && r.value == RestOfLine(ref[k + |HeadsRefPrefix|..])
  {
    match IndexOfFrom(ref, HeadsRefPrefix, 0)
    case None => Err(InvalidBranchRef(ref))
    case Some(k) => Ok(RestOfLine(ref[k + |HeadsRefPrefix|..]))
  }

  /** The branch named by `refs/heads/<b>` is `b`. */
  lemma BranchNameRoundTrip(b: string)
    requires NoLineTerminator(b)
    ensures BranchNameFromRef(HeadsRefPrefix + b) == Ok(b)
  {
    var ref := HeadsRefPrefix + b;
    assert OccursAt(ref, HeadsRefPrefix, 0);
    assert ref[|HeadsRefPrefix|..] == b;
  }

  /**
   * `isTreeDirty`: any `status --porcelain` output at all, even only spaces,
   * means dirty. So every entry git lists makes the tree dirty, and a clean
   * tree is one for which git printed no line at all, not even a blank one.
   */
  function IsTreeDirty(status: string): (dirty: bool)
    ensures NonBlankLines(status) != [] ==> dirty
    ensures !dirty ==> Split(status, '\n') == [""]
  {
    if status == "" then
      assert Split(status, '\n') == [""];
      assert !IsNonBlank("");
      false
    else true
  }

  /**
   * The two readings of "did `git` print anything": any output at all makes
   * the tree dirty, but only non-whitespace output shows a remote tag, so an
   * output of only whitespace is dirty yet shows no tag.
   */
  lemma DirtyStatusVersusTagOutput(output: string)
    ensures RemoteTagExists(output) ==> IsTreeDirty(output)
    ensures IsTreeDirty(output) && !RemoteTagExists(output) <==> output != "" && AllWhitespace(output)
  {
  }

  /** `remoteTagExists`: the `ls-remote` output has something other than whitespace. */
  function RemoteTagExists(output: string): (exists_: bool)
    ensures exists_ <==> !AllWhitespace(output)
  {
    |Trim(output)| != 0
  }

  /** `getRemoteBranchHeadCommit`: the output up to its first tab (all of it when it has none). */
  function RemoteBranchHeadCommit(output: string): (sha: string)
    ensures sha <= output && '\t' !in sha
    ensures sha == output || output[|sha|] == '\t'
  {
    Split(output, '\t')[0]
  }

  /** The head commit of a `<sha>\trefs/heads/<branch>` line is its object name. */
  lemma HeadCommitOfListing(sha: string, rest: string)
    requires '\t' !in sha
    ensures RemoteBranchHeadCommit(sha + "\t" + rest) == sha
  {
    var out := sha + "\t" + rest;
    var r := RemoteBranchHeadCommit(out);
    assert out[|sha|] == '\t';
  }

  // ---------------------------------------------------------------------------
  // Object names
  // ---------------------------------------------------------------------------

  const ShaLength := 40
  const MinPartialShaLength := 4

  predicate IsHexDigit(c: char) {
    ('0' <= c <= '9') || ('a' <= c <= 'f') || ('A' <= c <= 'F')
  }

  predicate AllHex(s: string) {
    forall i :: 0 <= i < |s| ==> IsHexDigit(s[i])
  }

  /** The anchored pattern `^[0-9a-fA-F]{min,max}$`, consumed one character at a time. */
  function MatchesHexRun(s: string, min: nat, max: nat): (r: bool)
    ensures r <==> min <= |s| <= max && AllHex(s)
    decreases |s|
  {
    if |s| == 0 then min == 0
    else max > 0 && IsHexDigit(s[0]) && MatchesHexRun(s[1..], if min > 0 then min - 1 else 0, max - 1)
  }

  /** `isSha`: exactly forty hexadecimal digits. */
  function IsSha(sha: string): (r: bool)
    ensures r <==> |sha| == ShaLength && AllHex(sha)
  {
    MatchesHexRun(sha, ShaLength, ShaLength)
  }

  /** `isPartialSha`: four to forty hexadecimal digits. */
  function IsPartialSha(sha: string): (r: bool)
    ensures r <==> MinPartialShaLength <= |sha| <= ShaLength && AllHex(sha)
  {
    MatchesHexRun(sha, MinPartialShaLength, ShaLength)
  }

  /** A full object name is also an abbreviated one. */
  lemma ShaIsPartialSha(sha: string)
    ensures IsSha(sha) ==> IsPartialSha(sha)
  {
  }
}

=== FILE: handler.dfy ===
/**
 * The release workflow (`GitTagSemverHandler.handle`): check out the pull
 * request's base branch, read the version tags of the remote, pick the
 * current version, derive the three tags of the next release, tag `HEAD`
 * with each of them, then push each of them. Every `git` call goes through
 * the `Backend` oracle, and the first failure ends the workflow.
 */
module Handler {
  import opened Wrappers
  import opened Strings
  import opened SemVer
  import opened VersionTags
  import opened Backend
  import Git
  import Resolver

  /** The workflow's inputs: the token that authenticates pushes, and the release type. */
  datatype Config = Config(gitHubToken: string, version: ReleaseType)

  /** The parts of the triggering pull request the workflow reads. */
  datatype PullRequest = PullRequest(baseRef: string, headRepoFullName: string)

  /** Why the workflow stopped: a `git` call failed, or one of the steps threw. */
  datatype HandleError =
    | GitFailed(failure: Failure)
    | ListingUnreadable(gitError: Git.GitError)
    | NoVersionTag(resolveError: Resolver.ResolveError)
    | VersionUnusable(versionError: VersionError)

  /** The calls made, and the outputs (always none) or the error. */
  datatype Outcome = Outcome(trace: seq<Event>, result: Result<map<string, string>, HandleError>)

  /** Only tags that look like versions are listed. */
  const VersionTagPattern := "v*"

  // ---------------------------------------------------------------------------
  // The remote (`getGitRemote`)
  // ---------------------------------------------------------------------------

  const RemoteScheme := "https://"
  const RemoteHost := "@github.com/"
  const RemoteSuffix := ".git"

  /** The authenticated HTTPS URL of the pull request's head repository. */
  function GitRemote(token: string, repoFullName: string): string {
    RemoteScheme + token + RemoteHost + repoFullName + RemoteSuffix
  }

  predicate IsAt(c: char) {
    c == '@'
  }

  /** What follows `prefix` at the start of `s`, if `s` starts with it. */
  function DropPrefix(s: string, prefix: string): (r: Option<string>)
    ensures r.Some? <==> prefix <= s
    ensures r.Some? ==> s == prefix + r.value
  {
    if prefix <= s then
      assert s == prefix + s[|prefix|..];
      Some(s[|prefix|..])
    else None
  }

  /** What precedes `suffix` at the end of `s`, if `s` ends with it. */
  function DropSuffix(s: string, suffix: string): (r: Option<string>)
    ensures r.Some? <==> |suffix| <= |s| && s[|s| - |suffix|..] == suffix
    ensures r.Some? ==> s == r.value + suffix
  {
    if |suffix| <= |s| && s[|s| - |suffix|..] == suffix then
      assert s == s[..|s| - |suffix|] + suffix;
      Some(s[..|s| - |suffix|])
    else None
  }

  /** The token and repository an authenticated GitHub URL names: the token ends at the first `@`. */
  function SplitRemote(url: string): (r: Option<(string, string)>)
    ensures r.Some? ==> GitRemote(r.value.0, r.value.1) == url
  {
    match DropPrefix(url, RemoteScheme)
    case None => None
    case Some(afterScheme) =>
      var token := TakeUntil(afterScheme, IsAt);
      assert afterScheme == token + afterScheme[|token|..];
      match DropPrefix(afterScheme[|token|..], RemoteHost)
      case None => None
      case Some(afterHost) =>
        match DropSuffix(afterHost, RemoteSuffix)
        case None => None
        case Some(repo) =>
          RemoteParts(url, afterScheme, token, afterScheme[|token|..], afterHost, repo);
          Some((token, repo))
  }

  /** Reassembling the URL from the pieces peeled off its front and back. */
  lemma RemoteParts(url: string, afterScheme: string, token: string, rest: string, afterHost: string, repo: string)
    requires url == RemoteScheme + afterScheme && afterScheme == token + rest
    requires rest == RemoteHost + afterHost && afterHost == repo + RemoteSuffix
    ensures url == GitRemote(token, repo)
  {
  }

  /** A token without `@` and the repository name are recovered from the URL. */
  lemma RemoteRoundTrip(token: string, repoFullName: string)
    requires '@' !in token
    ensures SplitRemote(GitRemote(token, repoFullName)) == Some((token, repoFullName))
  {
    var url := GitRemote(token, repoFullName);
    var afterScheme := token + (RemoteHost + (repoFullName + RemoteSuffix));
    assert url == RemoteScheme + afterScheme;
    assert DropPrefix(url, RemoteScheme) == Some(afterScheme);
    TakeUntilStopsAt(token, RemoteHost + (repoFullName + RemoteSuffix), IsAt);
    assert afterScheme[|token|..] == RemoteHost + (repoFullName + RemoteSuffix);
    assert DropPrefix(RemoteHost + (repoFullName + RemoteSuffix), RemoteHost) == Some(repoFullName + RemoteSuffix);
    assert DropSuffix(repoFullName + RemoteSuffix, RemoteSuffix) == Some(repoFullName);
  }

  // ---------------------------------------------------------------------------
  // Choosing the current version (`getLatestTag`)
  // ---------------------------------------------------------------------------

  /** Version precedence on tag names can rank any list of version tags. */
  lemma PrecedenceIsTotalPreorder()
    ensures Resolver.TotalPreorder(PrecedenceLe)
  {
    forall a, b, c
      ensures PrecedenceLe(a, b) || PrecedenceLe(b, a)
      ensures PrecedenceLe(a, b) && PrecedenceLe(b, c) ==> PrecedenceLe(a, c)
    {
      LessIsStrictTotalOrder(KeyOf(a), KeyOf(b), KeyOf(c));
    }
  }

  /** The version a repository without version tags starts from is a valid version. */
  lemma FirstVersionTagIsValid()
    ensures Parse(Resolver.FirstVersionTag) == Some(Origin)
  {
    ParseFormat(Origin);
    assert Resolver.FirstVersionTag == "v" + Format(Origin);
  }

  /**
   * The current version among the listed tag names: a valid version tag,
   * which is `v0.0.0` when there are none and otherwise a listed tag whose
   * version is at least that of every valid listed tag; an error when tags
   * are listed but none is valid.
   */
  function CurrentVersionTag(names: seq<string>): (r: Result<string, HandleError>)
    ensures r.Ok? ==> IsValid(r.value)
    ensures |names| == 0 ==> r == Ok(Resolver.FirstVersionTag)
    ensures r.Ok? && |names| > 0 ==> r.value in names
    ensures r.Ok? ==> forall i :: 0 <= i < |names| && IsValid(names[i]) ==> LessOrEqual(Parse(names[i]).value, Parse(r.value).value)
    ensures r.Err? <==> |names| > 0 && forall i :: 0 <= i < |names| ==> !IsValid(names[i])
    ensures r.Err? ==> r == Err(NoVersionTag(Resolver.NoCompliantVersionTag(names)))
  {
    PrecedenceIsTotalPreorder();
    match Resolver.LatestTag(names, IsValid, PrecedenceLe)
    case Err(e) => Err(NoVersionTag(e))
    case Ok(latest) =>
      FirstVersionTagIsValid();
      Ok(latest)
  }

  /** A listing line whose tag name is a version. */
  predicate ReadsAsVersion(line: string) {
    Git.MatchTagEntry(line).Some? && IsValid(Git.MatchTagEntry(line).value)
  }

  /** `getLatestTag`, from the text of the tag listing: the names are read, then the current version is chosen. */
  function GetLatestTag(listing: string): (r: Result<string, HandleError>)
    ensures r.Ok? ==> IsValid(r.value)
  {
    match Git.RemoteTagNames(listing)
    case Err(e) => Err(ListingUnreadable(e))
    case Ok(names) => CurrentVersionTag(names)
  }

  /**
   * What `getLatestTag` gives for a listing. The result is `v0.0.0` when the
   * listing has no non-blank line, and otherwise the name read from one of
   * its lines, at least every version named by a line. It throws when a line
   * cannot be read (the first such line is the error), or when lines were
   * listed but none names a version.
   */
  lemma LatestTagOfListing(listing: string)
    ensures var r := GetLatestTag(listing); var lines := Git.NonBlankLines(listing);
      && (lines == [] ==> r == Ok(Resolver.FirstVersionTag))
      && (r.Ok? && lines != [] ==> exists i :: 0 <= i < |lines| && Git.MatchTagEntry(lines[i]) == Some(r.value))
      && (r.Ok? ==> forall i :: 0 <= i < |lines| && ReadsAsVersion(lines[i]) ==>
            LessOrEqual(Parse(Git.MatchTagEntry(lines[i]).value).value, Parse(r.value).value))
      && (r.Err? <==>
            || (exists i :: 0 <= i < |lines| && Git.MatchTagEntry(lines[i]).None?)
            || (lines != [] && forall i :: 0 <= i < |lines| ==> !ReadsAsVersion(lines[i])))
      && (r.Err? && r.error.ListingUnreadable? ==> exists i :: (
            && 0 <= i < |lines|
            && r.error.gitError == Git.UnexpectedRemoteTagEntry(lines[i])
            && Git.MatchTagEntry(lines[i]).None?
            && forall j :: 0 <= j < i ==> Git.MatchTagEntry(lines[j]).Some?))
  {
    var lines := Git.NonBlankLines(listing);
    match Git.RemoteTagNames(listing)
    case Err(e) =>
    case Ok(names) =>
      LatestOfListing(lines, names, CurrentVersionTag(names));
  }

  /** What the choice among the names read from the lines says about the lines. */
  lemma LatestOfListing(lines: seq<string>, names: seq<string>, r: Result<string, HandleError>)
    requires |names| == |lines| && forall i :: 0 <= i < |lines| ==> Git.MatchTagEntry(lines[i]) == Some(names[i])
    requires r == CurrentVersionTag(names)
    ensures r.Ok? && lines != [] ==> exists i :: 0 <= i < |lines| && Git.MatchTagEntry(lines[i]) == Some(r.value)
    ensures r.Ok? ==> forall i :: 0 <= i < |lines| && ReadsAsVersion(lines[i]) ==>
      LessOrEqual(Parse(Git.MatchTagEntry(lines[i]).value).value, Parse(r.value).value)
    ensures r.Err? <==> lines != [] && forall i :: 0 <= i < |lines| ==> !ReadsAsVersion(lines[i])
  {
    assert forall i :: 0 <= i < |lines| ==> (ReadsAsVersion(lines[i]) <==> IsValid(names[i]));
    if r.Ok? && lines != [] {
      var k :| 0 <= k < |names| && names[k] == r.value;
      assert Git.MatchTagEntry(lines[k]) == Some(r.value);
    }
  }

  // ---------------------------------------------------------------------------
  // Publishing (`tagAndPublish`)
  // ---------------------------------------------------------------------------

  /** Force-tag `HEAD` with each tag, in order. */
  function TagEvents(tags: seq<string>): seq<Event> {
    seq(|tags|, i requires 0 <= i < |tags| => Tag(tags[i], true))
  }

  /** Force-push each tag to `remote`, in order. */
  function PushEvents(tags: seq<string>, remote: string): seq<Event> {
    seq(|tags|, i requires 0 <= i < |tags| => Push(remote, tags[i], true))
  }

  /** The calls `tagAndPublish` makes: all the tagging, then all the pushing. */
  function PublishPlan(tags: seq<string>, remote: string): seq<Event> {
    TagEvents(tags) + PushEvents(tags, remote)
  }

  /**
   * The plan creates every tag locally before it pushes any, forces every
   * call, pushes every tag to the one remote, and handles the tags in the
   * given order in both phases.
   */
  lemma PublishPlanShape(tags: seq<string>, remote: string)
    ensures var plan := PublishPlan(tags, remote);
      && |plan| == 2 * |tags|
      && (forall i, j :: 0 <= i < |plan| && 0 <= j < |plan| && plan[i].Tag? && plan[j].Push? ==> i < j)
      && (forall i :: 0 <= i < |plan| ==> (plan[i].Tag? <==> i < |tags|) && (plan[i].Push? <==> |tags| <= i))
      && (forall i :: 0 <= i < |plan| ==> plan[i].force)
      && (forall i :: 0 <= i < |plan| && plan[i].Push? ==> plan[i].remote == remote)
      && (forall i :: 0 <= i < |tags| ==> plan[i].name == tags[i] && plan[|tags| + i].name == tags[i])
  {
    var plan := PublishPlan(tags, remote);
    forall i | 0 <= i < |plan|
      ensures plan[i] == if i < |tags| then Tag(tags[i], true) else Push(remote, tags[i - |tags|], true)
    {
      PlanAt(tags, remote, i);
    }
  }

  /** The `i`-th call of the plan. */
  lemma PlanAt(tags: seq<string>, remote: string, i: nat)
    requires i < 2 * |tags|
    ensures |PublishPlan(tags, remote)| == 2 * |tags|
    ensures PublishPlan(tags, remote)[i] == if i < |tags| then Tag(tags[i], true) else Push(remote, tags[i - |tags|], true)
  {
  }

  /** Running the plan after the calls in `done`. */
  function Publish(git: Oracle, done: seq<Event>, tags: seq<string>, remote: string): Run {
    RunAll(git, done, PublishPlan(tags, remote))
  }

  /** If any tag was pushed, then every tag had been created locally, successfully, before. */
  lemma PushOnlyAfterAllTagged(git: Oracle, done: seq<Event>, tags: seq<string>, remote: string, k: nat)
    requires var r := Publish(git, done, tags, remote); k < |r.executed| && r.executed[k].Push?
    ensures var plan := PublishPlan(tags, remote);
      forall i :: 0 <= i < |tags| ==> plan[i] == Tag(tags[i], true) && SucceededAt(git, done, plan, i)
  {
    var r := Publish(git, done, tags, remote);
    var plan := PublishPlan(tags, remote);
    assert r.executed[k] == plan[k];
    assert forall i :: 0 <= i < |tags| ==> plan[i] == Tag(tags[i], true);
    assert k >= |tags|;
  }

  // ---------------------------------------------------------------------------
  // The workflow (`handle`)
  // ---------------------------------------------------------------------------

  /** The tag listing request for the pull request's head repository. */
  function ListingQuery(config: Config, pr: PullRequest): Event {
    ListRemoteTags(GitRemote(config.gitHubToken, pr.headRepoFullName), VersionTagPattern)
  }

  /** The last call of a non-empty trace failed, and its rejection is `failure`. */
  predicate FailedLast(git: Oracle, trace: seq<Event>, failure: Failure) {
    |trace| > 0 &&
    var last := |trace| - 1;
    var reply := git(trace[..last], trace[last]);
    reply.Failed? && failure == Failure(Args(trace[last]), reply.message)
  }

  /**
   * Making the calls of `todo` after those in `done`: either all of them were
   * made and succeeded, or the trace ends with the first one that failed.
   */
  function RunOutcome(git: Oracle, done: seq<Event>, todo: seq<Event>): (o: Outcome)
    ensures done <= o.trace <= done + todo
    ensures o.result.Ok? ==> o.trace == done + todo && o.result.value == map[]
    ensures o.result.Ok? ==> forall i :: 0 <= i < |todo| ==> SucceededAt(git, done, todo, i)
    ensures o.result.Err? ==> o.result.error.GitFailed? && FailedLast(git, o.trace, o.result.error.failure)
    ensures o.result.Err? ==> forall i :: 0 <= i < |o.trace| - |done| - 1 ==> SucceededAt(git, done, todo, i)
  {
    var run := RunAll(git, done, todo);
    RunTrace(done, todo, run.executed);
    match run.failure
    case None => Outcome(done + run.executed, Ok(map[]))
    case Some(failure) =>
      FailedRunEndsTrace(git, done, todo);
      Outcome(done + run.executed, Err(GitFailed(failure)))
  }

  /** The calls made after `done` are a prefix of `todo`. */
  lemma RunTrace(done: seq<Event>, todo: seq<Event>, executed: seq<Event>)
    requires |executed| <= |todo| && executed == todo[..|executed|]
    ensures done <= done + executed <= done + todo
  {
    assert (done + todo)[..|done| + |executed|] == done + executed;
  }

  /** When a run fails, the last call of its trace is the rejected one. */
  lemma FailedRunEndsTrace(git: Oracle, done: seq<Event>, todo: seq<Event>)
    requires RunAll(git, done, todo).failure.Some?
    ensures var run := RunAll(git, done, todo); FailedLast(git, done + run.executed, run.failure.value)
  {
    var run := RunAll(git, done, todo);
    var n := |run.executed|;
    TraceEnd(done, todo, n);
    LastCallFailed(git, done + run.executed, done + todo[..n - 1], todo[n - 1], run.failure.value);
  }

  /** A trace whose last call was rejected with `failure`. */
  lemma LastCallFailed(git: Oracle, trace: seq<Event>, before: seq<Event>, last: Event, failure: Failure)
    requires |trace| > 0 && trace[..|trace| - 1] == before && trace[|trace| - 1] == last
    requires git(before, last).Failed? && failure == Failure(Args(last), git(before, last).message)
    ensures FailedLast(git, trace, failure)
  {
  }

  /** The calls before the last one of `done` followed by the first `n` calls of `todo`, and that last call. */
  lemma TraceEnd(done: seq<Event>, todo: seq<Event>, n: nat)
    requires 0 < n <= |todo|
    ensures var trace := done + todo[..n];
      && trace[..|trace| - 1] == done + todo[..n - 1]
      && trace[|trace| - 1] == todo[n - 1]
  {
    var trace := done + todo[..n];
    assert trace[..|trace| - 1] == done + todo[..n - 1];
  }

  /**
   * The steps after the listing was read (`getLatestTag` onwards, then
   * `getVersionTags` and `tagAndPublish`), after the calls in `done`: a
   * success made the six publishing calls for the tags of the release after
   * the current version, and returns no outputs.
   */
  function Release(git: Oracle, done: seq<Event>, listing: string, version: ReleaseType, remote: string): (o: Outcome)
    ensures done <= o.trace
    ensures o.result.Ok? ==> o.result.value == map[] && |o.trace| == |done| + 6
    ensures o.result.Err? && o.result.error.GitFailed? ==> |o.trace| > |done| && FailedLast(git, o.trace, o.result.error.failure)
  {
    match GetLatestTag(listing)
    case Err(e) => Outcome(done, Err(e))
    case Ok(latest) =>
      match GetVersionTags(latest, version)
      case Err(e) => Outcome(done, Err(VersionUnusable(e)))
      case Ok(tags) =>
        var plan := PublishPlan(tags.AsSeq(), remote);
        assert |plan| == 6;
        RunOutcome(git, done, plan)
  }

  /**
   * A successful release made exactly the publishing calls for the tags of
   * the release after the current version chosen from the listing.
   */
  lemma ReleasePublishesNextTags(git: Oracle, done: seq<Event>, listing: string, version: ReleaseType, remote: string)
    requires Release(git, done, listing, version, remote).result.Ok?
    ensures GetLatestTag(listing).Ok?
    ensures GetVersionTags(GetLatestTag(listing).value, version).Ok?
    ensures Release(git, done, listing, version, remote).trace ==
      done + PublishPlan(GetVersionTags(GetLatestTag(listing).value, version).value.AsSeq(), remote)
  {
  }

  /**
   * The workflow: the first call checks out the base branch, the second
   * lists the remote's version tags; a success made eight calls and returns
   * no outputs, and a failure of `git` is the reply to the last call made.
   */
  function Handle(config: Config, pr: PullRequest, git: Oracle): (o: Outcome)
    ensures |o.trace| >= 1 && o.trace[0] == Checkout(pr.baseRef)
    ensures |o.trace| >= 2 ==> o.trace[1] == ListingQuery(config, pr)
    ensures git([], Checkout(pr.baseRef)).Failed? <==> |o.trace| == 1
    ensures o.result.Ok? ==> o.result.value == map[] && |o.trace| == 8
    ensures o.result.Err? && o.result.error.GitFailed? ==> FailedLast(git, o.trace, o.result.error.failure)
  {
    var checkout := Checkout(pr.baseRef);
    match git([], checkout)
    case Failed(message) =>
      assert [checkout][..0] == [];
      Outcome([checkout], Err(GitFailed(Failure(Args(checkout), message))))
    case Stdout(_) =>
      var query := ListingQuery(config, pr);
      match git([checkout], query)
      case Failed(message) =>
        assert [checkout, query][..1] == [checkout];
        Outcome([checkout, query], Err(GitFailed(Failure(Args(query), message))))
      case Stdout(listing) =>
        Release(git, [checkout, query], listing, config.version, GitRemote(config.gitHubToken, pr.headRepoFullName))
  }

  // ---------------------------------------------------------------------------
  // Properties of the workflow
  // ---------------------------------------------------------------------------

  /** The listing's reply, when the checkout succeeded. */
  function ListingReply(config: Config, pr: PullRequest, git: Oracle): Reply {
    git([Checkout(pr.baseRef)], ListingQuery(config, pr))
  }

  /** Once the checkout succeeded and the listing was read, the workflow is the release from that listing. */
  lemma HandleAfterListing(config: Config, pr: PullRequest, git: Oracle, listing: string)
    requires git([], Checkout(pr.baseRef)).Stdout? && ListingReply(config, pr, git) == Stdout(listing)
    ensures Handle(config, pr, git) ==
      Release(git, [Checkout(pr.baseRef), ListingQuery(config, pr)], listing, config.version, GitRemote(config.gitHubToken, pr.headRepoFullName))
  {
  }

  /** The chosen current version is always a version, so the increment step never throws. */
  lemma IncrementNeverThrows(config: Config, pr: PullRequest, git: Oracle)
    ensures var o := Handle(config, pr, git); !(o.result.Err? && o.result.error.VersionUnusable?)
  {
    var reply := ListingReply(config, pr, git);
    if git([], Checkout(pr.baseRef)).Stdout? && reply.Stdout? && GetLatestTag(reply.text).Ok? {
      var latest := GetLatestTag(reply.text).value;
      var names := Git.RemoteTagNames(reply.text).value;
      assert GetLatestTag(reply.text) == CurrentVersionTag(names);
      assert IsValid(latest);
      assert GetVersionTags(latest, config.version).Ok?;
    }
  }

  /** The six calls publishing a tag triple. */
  lemma PlanOfTriple(t: TagTriple, remote: string)
    ensures PublishPlan(t.AsSeq(), remote) == [
      Tag(t.majorTag, true), Tag(t.minorTag, true), Tag(t.fullTag, true),
      Push(remote, t.majorTag, true), Push(remote, t.minorTag, true), Push(remote, t.fullTag, true)]
  {
  }

  /** What a successful run read and published: the listing, the current version chosen from it, and the plan for the next release. */
  lemma SuccessfulTrace(config: Config, pr: PullRequest, git: Oracle) returns (names: seq<string>, latest: string, tags: TagTriple)
    requires Handle(config, pr, git).result.Ok?
    ensures ListingReply(config, pr, git).Stdout?
    ensures Git.RemoteTagNames(ListingReply(config, pr, git).text) == Ok(names)
    ensures CurrentVersionTag(names) == Ok(latest)
    ensures GetVersionTags(latest, config.version) == Ok(tags)
    ensures Handle(config, pr, git).trace ==
      [Checkout(pr.baseRef), ListingQuery(config, pr)] + PublishPlan(tags.AsSeq(), GitRemote(config.gitHubToken, pr.headRepoFullName))
  {
    var reply := ListingReply(config, pr, git);
    names := Git.RemoteTagNames(reply.text).value;
    latest := CurrentVersionTag(names).value;
    tags := GetVersionTags(latest, config.version).value;
  }

  /**
   * The full tag a successful run pushed last names a version strictly above
   * every version tag the remote listed.
   */
  lemma ReleaseOutranksRemoteVersions(config: Config, pr: PullRequest, git: Oracle) returns (names: seq<string>, released: string)
    requires Handle(config, pr, git).result.Ok?
    ensures ListingReply(config, pr, git).Stdout?
    ensures Git.RemoteTagNames(ListingReply(config, pr, git).text) == Ok(names)
    ensures Handle(config, pr, git).trace[7] == Push(GitRemote(config.gitHubToken, pr.headRepoFullName), released, true)
    ensures IsValid(released)
    ensures forall i :: 0 <= i < |names| && IsValid(names[i]) ==> Less(Parse(names[i]).value, Parse(released).value)
  {
    var latest, tags;
    names, latest, tags := SuccessfulTrace(config, pr, git);
    released := tags.fullTag;
    TraceOfTriple(Handle(config, pr, git).trace, [Checkout(pr.baseRef), ListingQuery(config, pr)], tags, GitRemote(config.gitHubToken, pr.headRepoFullName));
    NextOutranks(names, latest, config.version, tags);
  }

  /** The next release's full tag is above every valid listed tag. */
  lemma NextOutranks(names: seq<string>, latest: string, t: ReleaseType, tags: TagTriple)
    requires CurrentVersionTag(names) == Ok(latest)
    requires GetVersionTags(latest, t) == Ok(tags)
    ensures IsValid(tags.fullTag)
    ensures forall i :: 0 <= i < |names| && IsValid(names[i]) ==> Less(Parse(names[i]).value, Parse(tags.fullTag).value)
  {
    var next := Parse(tags.fullTag).value;
    forall i | 0 <= i < |names| && IsValid(names[i])
      ensures Less(Parse(names[i]).value, next)
    {
      LessIsStrictTotalOrder(Parse(names[i]).value, Parse(latest).value, next);
    }
  }

  /** The last call of a trace that ends with a triple's plan pushes the full tag. */
  lemma TraceOfTriple(trace: seq<Event>, prefix: seq<Event>, tags: TagTriple, remote: string)
    requires |prefix| == 2 && trace == prefix + PublishPlan(tags.AsSeq(), remote)
    ensures |trace| == 8 && trace[7] == Push(remote, tags.fullTag, true)
  {
    PlanOfTriple(tags, remote);
  }

  /**
   * When the listing cannot be read, or lists tags none of which is a
   * version, the workflow throws after the listing: nothing is tagged or pushed.
   */
  lemma BadListingStopsBeforeTagging(config: Config, pr: PullRequest, git: Oracle)
    requires git([], Checkout(pr.baseRef)).Stdout?
    requires ListingReply(config, pr, git).Stdout?
    ensures var o := Handle(config, pr, git);
      var names := Git.RemoteTagNames(ListingReply(config, pr, git).text);
      && (names.Err? ==> o == Outcome([Checkout(pr.baseRef), ListingQuery(config, pr)], Err(ListingUnreadable(names.error))))
      && (names.Ok? && |names.value| > 0 && (forall i :: 0 <= i < |names.value| ==> !IsValid(names.value[i])) ==>
            o == Outcome([Checkout(pr.baseRef), ListingQuery(config, pr)], Err(NoVersionTag(Resolver.NoCompliantVersionTag(names.value)))))
  {
  }

  /** An empty listing is read as no tags. */
  lemma EmptyListing()
    ensures Git.RemoteTagNames("") == Ok([])
  {
    assert Git.NonBlankLines("") == [] by {
      assert Split("", '\n') == [""];
      assert !Git.IsNonBlank("");
    }
  }

  /** With an empty listing, the current version is `v0.0.0`. */
  lemma EmptyListingStartsFromOrigin()
    ensures GetLatestTag("") == Ok(Resolver.FirstVersionTag)
  {
    EmptyListing();
  }

  /** A `git` that accepts every call runs the whole plan. */
  lemma AcceptedCallsAllRun(git: Oracle, done: seq<Event>, todo: seq<Event>)
    requires forall trace, e :: git(trace, e).Stdout?
    ensures RunOutcome(git, done, todo) == Outcome(done + todo, Ok(map[]))
  {
    var o := RunOutcome(git, done, todo);
    if o.result.Err? {
      assert false;
    }
  }

  /**
   * The first release of a repository: with a remote that has no version
   * tags and a `git` that accepts every call, a minor release tags and
   * pushes `v0`, `v0.1` and `v0.1.0`.
   */
  lemma FirstReleaseOfRepository(pr: PullRequest, token: string, git: Oracle)
    requires forall trace, e :: git(trace, e) == Stdout("")
    ensures Handle(Config(token, Minor), pr, git) == Outcome(
      [Checkout(pr.baseRef), ListingQuery(Config(token, Minor), pr)] + PublishPlan(["v0", "v0.1", "v0.1.0"], GitRemote(token, pr.headRepoFullName)),
      Ok(map[]))
  {
    var config := Config(token, Minor);
    HandleAfterListing(config, pr, git, "");
    FirstReleaseAfterEmptyListing(git, [Checkout(pr.baseRef), ListingQuery(config, pr)], GitRemote(token, pr.headRepoFullName));
  }

  /** After an empty listing, a minor release with a `git` that accepts every call publishes `v0`, `v0.1` and `v0.1.0`. */
  lemma FirstReleaseAfterEmptyListing(git: Oracle, done: seq<Event>, remote: string)
    requires forall trace, e :: git(trace, e).Stdout?
    ensures Release(git, done, "", Minor, remote) == Outcome(done + PublishPlan(["v0", "v0.1", "v0.1.0"], remote), Ok(map[]))
  {
    EmptyListingStartsFromOrigin();
    FirstMinorRelease();
    var tags := TagTriple("v0", "v0.1", "v0.1.0");
    assert tags.AsSeq() == ["v0", "v0.1", "v0.1.0"];
    AcceptedRelease(git, done, "", Resolver.FirstVersionTag, Minor, tags, remote);
  }

  /** With a `git` that accepts every call, the steps after the listing publish the next release's tags. */
  lemma AcceptedRelease(git: Oracle, done: seq<Event>, listing: string, latest: string, version: ReleaseType, tags: TagTriple, remote: string)
    requires forall trace, e :: git(trace, e).Stdout?
    requires GetLatestTag(listing) == Ok(latest) && GetVersionTags(latest, version) == Ok(tags)
    ensures Release(git, done, listing, version, remote) == Outcome(done + PublishPlan(tags.AsSeq(), remote), Ok(map[]))
  {
    AcceptedCallsAllRun(git, done, PublishPlan(tags.AsSeq(), remote));
  }
}

=== FILE: json.dfy ===
/** `JSON.stringify` on an array of strings, as used in the resolver's error message. */
module Json {
  import opened Strings

  function HexDigit(d: nat): char
    requires d < 16
  {
    if d < 10 then DigitChar(d) else (('a' as int) + d - 10) as char
  }

  /** How `JSON.stringify` writes one character inside a string literal. */
  function EscapeChar(c: char): string {
    if c == '"' then "\\\""
    else if c == '\\' then "\\\\"
    else if c == '\U{0008}' then "\\b"
    else if c == '\U{000C}' then "\\f"
    else if c == '\n' then "\\n"
    else if c == '\r' then "\\r"
    else if c == '\t' then "\\t"
    else if (c as int) < 0x20 then "\\u00" + [HexDigit((c as int) / 16), HexDigit((c as int) % 16)]
    else [c]
  }

  function Escape(s: string): string
    decreases |s|
  {
    if |s| == 0 then "" else EscapeChar(s[0]) + Escape(s[1..])
  }

  /** A JSON string literal. */
  function Quote(s: string): string {
    "\"" + Escape(s) + "\""
  }

  /** The literals of the elements, in order. */
  function Quoted(xs: seq<string>): seq<string> {
    seq(|xs|, i requires 0 <= i < |xs| => Quote(xs[i]))
  }

  /** A JSON array of strings: the literals, comma-separated, between brackets. */
  function StringArray(xs: seq<string>): string {
    "[" + Join(Quoted(xs), ',') + "]"
  }

  /** Characters written as themselves. */
  predicate IsPlainChar(c: char) {
    c != '"' && c != '\\' && (c as int) >= 0x20
  }

  predicate IsPlain(s: string) {
    forall i :: 0 <= i < |s| ==> IsPlainChar(s[i])
  }

  /** A string of plain characters is written between quotes as it is. */
  lemma {:induction false} EscapePlain(s: string)
    requires IsPlain(s)
    ensures Escape(s) == s
    ensures Quote(s) == "\"" + s + "\""
    decreases |s|
  {
    if |s| > 0 {
      EscapePlain(s[1..]);
      assert [s[0]] + s[1..] == s;
    }
  }

  /** Every element of the array appears, quoted, in its rendering; the result is the position where it occurs. */
  lemma ItemsShowEveryElement(xs: seq<string>, k: nat) returns (at: nat)
    requires k < |xs|
    ensures OccursAt(StringArray(xs), Quote(xs[k]), at)
  {
    var i := JoinShowsPart(Quoted(xs), ',', k);
    OccursInContext("[", Join(Quoted(xs), ','), "]", Quote(xs[k]), i);
    at := 1 + i;
  }
}

=== FILE: resolver.dfy ===
/**
 * Choosing the current version among the version tags on the remote
 * (`getLatestTag`): no tags means a first release from `v0.0.0`; otherwise
 * tags that are not versions are dropped, and the one of highest precedence
 * is picked. Validity and precedence are parameters: any validity test, and
 * any precedence that is a total preorder.
 */
module Resolver {
  import opened Wrappers
  import opened Strings
  import Seqs
  import Json

  /** `le` relates every pair one way or the other, and is transitive (so also reflexive). */
  ghost predicate TotalPreorder(le: (string, string) -> bool) {
    && (forall a, b :: le(a, b) || le(b, a))
    && (forall a, b, c :: le(a, b) && le(b, c) ==> le(a, c))
  }

  /**
   * The first maximal element: a descending stable sort (`sort(rcompare)`)
   * puts it at index 0. Every element is at most it, and every element
   * before it is strictly below it.
   */
  function FirstMaximal(xs: seq<string>, le: (string, string) -> bool): (k: nat)
    requires |xs| > 0
    requires TotalPreorder(le)
    ensures k < |xs|
    ensures forall i :: 0 <= i < |xs| ==> le(xs[i], xs[k])
    ensures forall i :: 0 <= i < k ==> !le(xs[k], xs[i])
    decreases |xs|
  {
    if |xs| == 1 then 0
    else
      var k := FirstMaximal(xs[..|xs| - 1], le);
      if le(xs[|xs| - 1], xs[k]) then k else |xs| - 1
  }

  const FirstVersionTag := "v0.0.0"

  /** Tags were found but none is a version: the error carries the raw list. */
  datatype ResolveError = NoCompliantVersionTag(found: seq<string>)

  const NoCompliantPrefix := "found version tags but no fully compliant version tag: "

  /** The thrown error's message: the fixed text followed by the list in JSON. */
  function Message(e: ResolveError): string {
    NoCompliantPrefix + Json.StringArray(e.found)
  }

  /**
   * The tag to increment: `v0.0.0` when the remote has no tags; an error when
   * it has tags but none is valid; otherwise a valid listed tag that every
   * valid listed tag is at most.
   */
  function LatestTag(tags: seq<string>, valid: string -> bool, le: (string, string) -> bool): (r: Result<string, ResolveError>)
    requires TotalPreorder(le)
    ensures |tags| == 0 ==> r == Ok(FirstVersionTag)
    ensures r.Err? <==> |tags| > 0 && forall i :: 0 <= i < |tags| ==> !valid(tags[i])
    ensures r.Err? ==> r.error == NoCompliantVersionTag(tags)
    ensures |tags| > 0 && r.Ok? ==> r.value in tags && valid(r.value)
    ensures |tags| > 0 && r.Ok? ==> forall i :: 0 <= i < |tags| && valid(tags[i]) ==> le(tags[i], r.value)
  {
    if |tags| == 0 then Ok(FirstVersionTag)
    else
      var candidates := Seqs.Filter(tags, valid);
      if |candidates| == 0 then Err(NoCompliantVersionTag(tags))
      else Ok(candidates[FirstMaximal(candidates, le)])
  }

  /** While one valid tag remains, inserting a tag that is not valid does not change the choice. */
  lemma InvalidTagIsIgnored(a: seq<string>, x: string, b: seq<string>, valid: string -> bool, le: (string, string) -> bool)
    requires TotalPreorder(le)
    requires !valid(x)
    requires exists i :: 0 <= i < |a + b| && valid((a + b)[i])
    ensures LatestTag(a + [x] + b, valid, le) == LatestTag(a + b, valid, le)
  {
    FilterSkips(a, x, b, valid);
    var i :| 0 <= i < |a + b| && valid((a + b)[i]);
    assert (a + b)[i] in Seqs.Filter(a + b, valid);
  }

  /** Filtering out a tag that is not valid. */
  lemma FilterSkips(a: seq<string>, x: string, b: seq<string>, valid: string -> bool)
    requires !valid(x)
    ensures Seqs.Filter(a + [x] + b, valid) == Seqs.Filter(a + b, valid)
  {
    Seqs.FilterConcat(a + [x], b, valid);
    Seqs.FilterConcat(a, [x], valid);
    Seqs.FilterConcat(a, b, valid);
    assert [x][1..] == [];
  }

  /** The error message shows every tag that was found, as a JSON string literal. */
  lemma MessageShowsEveryTag(e: ResolveError, k: nat) returns (at: nat)
    requires k < |e.found|
    ensures OccursAt(Message(e), Json.Quote(e.found[k]), at)
  {
    var i := Json.ItemsShowEveryElement(e.found, k);
    OccursInContext(NoCompliantPrefix, Json.StringArray(e.found), "", Json.Quote(e.found[k]), i);
    assert NoCompliantPrefix + Json.StringArray(e.found) + "" == Message(e);
    at := |NoCompliantPrefix| + i;
  }

  /** A tag of plain characters appears in the message verbatim, between quotes. */
  lemma MessageShowsPlainTag(e: ResolveError, k: nat)
    requires k < |e.found| && Json.IsPlain(e.found[k])
    ensures Contains(Message(e), "\"" + e.found[k] + "\"")
  {
    var at := MessageShowsEveryTag(e, k);
    Json.EscapePlain(e.found[k]);
    assert at <= |Message(e)|;
  }
}

=== FILE: semver.dfy ===
/**
 * The part of Semantic Versioning 2.0.0 the tagging workflow uses, restricted
 * to normal versions `X.Y.Z` (item 2): parsing with an optional leading `v`,
 * rendering, precedence (item 11) and incrementing (items 6 to 8).
 * Pre-release and build metadata are not modelled.
 */
module SemVer {
  import opened Wrappers
  import opened Strings

  datatype Version = Version(major: nat, minor: nat, patch: nat)

  /** The release types the workflow accepts. */
  datatype ReleaseType = Patch | Minor | Major

  const Origin := Version(0, 0, 0)

  // ---------------------------------------------------------------------------
  // Precedence (item 11): major, then minor, then patch, compared numerically
  // ---------------------------------------------------------------------------

  predicate Less(a: Version, b: Version) {
    || a.major < b.major
    || (a.major == b.major && a.minor < b.minor)
    || (a.major == b.major && a.minor == b.minor && a.patch < b.patch)
  }

  predicate LessOrEqual(a: Version, b: Version) {
    a == b || Less(a, b)
  }

  /** Precedence is a strict total order on normal versions. */
  lemma LessIsStrictTotalOrder(a: Version, b: Version, c: Version)
    ensures !Less(a, a)
    ensures Less(a, b) && Less(b, c) ==> Less(a, c)
    ensures Less(a, b) || a == b || Less(b, a)
  {
  }

  // ---------------------------------------------------------------------------
  // Increment (items 6 to 8)
  // ---------------------------------------------------------------------------

  /** The components of `v` that a release of type `t` compares: the rest are zeroed. */
  function Truncate(v: Version, t: ReleaseType): Version {
    match t
    case Patch => v
    case Minor => Version(v.major, v.minor, 0)
    case Major => Version(v.major, 0, 0)
  }

  /**
   * `semver.inc` on a normal version: the least version that is above `v`
   * at the level of `t` and carries zeros below that level.
   */
  function Inc(v: Version, t: ReleaseType): (w: Version)
    ensures Less(v, w)
    ensures Truncate(w, t) == w
    ensures Less(Truncate(v, t), w)
    ensures forall u :: Less(Truncate(v, t), Truncate(u, t)) ==> LessOrEqual(w, u)
  {
    match t
    case Patch => Version(v.major, v.minor, v.patch + 1)
    case Minor => Version(v.major, v.minor + 1, 0)
    case Major => Version(v.major + 1, 0, 0)
  }

  // ---------------------------------------------------------------------------
  // Text form
  // ---------------------------------------------------------------------------

  /** The version string `semver` produces: `X.Y.Z`, no prefix. */
  function Format(v: Version): string {
    NatToString(v.major) + "." + NatToString(v.minor) + "." + NatToString(v.patch)
  }

  /** The body of a version string: an optional leading `v` is tolerated. */
  function StripPrefix(s: string): string {
    if |s| > 0 && s[0] == 'v' then s[1..] else s
  }

  /** Three numeric identifiers separated by dots. */
  function ParseBody(body: string): Option<Version> {
    var parts := Split(body, '.');
    if |parts| != 3 then None
    else
      match (ParseNumeric(parts[0]), ParseNumeric(parts[1]), ParseNumeric(parts[2]))
      case (Some(x), Some(y), Some(z)) => Some(Version(x, y, z))
      case _ => None
  }

  /** `semver.valid`/`semver.parse` on normal versions: `v?` then three numeric identifiers separated by dots. */
  function Parse(s: string): Option<Version> {
    ParseBody(StripPrefix(s))
  }

  predicate IsValid(s: string) {
    Parse(s).Some?
  }

  lemma NumericHasNoDot(s: string)
    requires IsNumericIdentifier(s)
    ensures '.' !in s
  {
  }

  /** The three numerals of a version. */
  function Numerals(v: Version): seq<string> {
    [NatToString(v.major), NatToString(v.minor), NatToString(v.patch)]
  }

  /** A rendered version splits at its dots into its three numerals. */
  lemma SplitFormat(v: Version)
    ensures Split(Format(v), '.') == Numerals(v)
  {
    var parts := Numerals(v);
    NumericHasNoDot(parts[0]);
    NumericHasNoDot(parts[1]);
    NumericHasNoDot(parts[2]);
    assert Join(parts, '.') == Format(v) by {
      assert Join(parts[1..], '.') == parts[1] + "." + parts[2] by {
        assert parts[1..][1..] == [parts[2]];
      }
    }
    SplitJoin(parts, '.');
  }

  /** The body of a rendered version reads back as the version. */
  lemma ParseBodyFormat(v: Version)
    ensures ParseBody(Format(v)) == Some(v)
  {
    SplitFormat(v);
    NatToStringValue(v.major);
    NatToStringValue(v.minor);
    NatToStringValue(v.patch);
  }

  /** Parsing a rendered version, with or without the `v` prefix, gives the version back. */
  lemma ParseFormat(v: Version)
    ensures Parse(Format(v)) == Some(v)
    ensures Parse("v" + Format(v)) == Some(v)
  {
    ParseBodyFormat(v);
    assert Format(v)[0] == NatToString(v.major)[0];
    assert StripPrefix(Format(v)) == Format(v);
    assert StripPrefix("v" + Format(v)) == Format(v);
  }

  /** A parsed string is the rendering of its version, possibly prefixed with `v`: there is no other spelling. */
  lemma ParseIsCanonical(s: string)
    requires Parse(s).Some?
    ensures s == Format(Parse(s).value) || s == "v" + Format(Parse(s).value)
  {
    ParseBodyIsCanonical(StripPrefix(s));
    if |s| > 0 && s[0] == 'v' {
      assert s == "v" + s[1..];
    }
  }

  /** A body that reads as a version is that version's rendering. */
  lemma ParseBodyIsCanonical(body: string)
    requires ParseBody(body).Some?
    ensures body == Format(ParseBody(body).value)
  {
    var v := ParseBody(body).value;
    var parts := Split(body, '.');
    JoinSplit(body, '.');
    NumericIsCanonical(parts[0]);
    NumericIsCanonical(parts[1]);
    NumericIsCanonical(parts[2]);
    assert parts[1..][1..] == [parts[2]];
    assert Join(parts[1..], '.') == parts[1] + "." + parts[2];
    assert body == parts[0] + "." + Join(parts[1..], '.');
  }

  // ---------------------------------------------------------------------------
  // Precedence on version strings (`semver.rcompare`)
  // ---------------------------------------------------------------------------

  /** The version a string denotes; strings that are not versions are never compared by the workflow. */
  function KeyOf(s: string): Version {
    Parse(s).GetOr(Origin)
  }

  /** `a` does not take precedence over `b`. */
  predicate PrecedenceLe(a: string, b: string) {
    LessOrEqual(KeyOf(a), KeyOf(b))
  }
}

=== FILE: seqs.dfy ===
/** Generic sequence helpers: JavaScript's `Array.prototype.filter`. */
module Seqs {

  /** The elements of `xs` that satisfy `p`, in their original order. */
  function Filter<T>(xs: seq<T>, p: T -> bool): (r: seq<T>)
    ensures |r| <= |xs|
    ensures forall i :: 0 <= i < |r| ==> r[i] in xs && p(r[i])
    ensures forall i :: 0 <= i < |xs| && p(xs[i]) ==> xs[i] in r
    decreases |xs|
  {
    if |xs| == 0 then []
    else if p(xs[0]) then [xs[0]] + Filter(xs[1..], p)
    else Filter(xs[1..], p)
  }

  /** Filtering distributes over concatenation, so it keeps relative order. */
  lemma {:induction false} FilterConcat<T>(a: seq<T>, b: seq<T>, p: T -> bool)
    ensures Filter(a + b, p) == Filter(a, p) + Filter(b, p)
    decreases |a|
  {
    if |a| == 0 {
      assert a + b == b;
    } else {
      assert (a + b)[1..] == a[1..] + b;
      FilterConcat(a[1..], b, p);
    }
  }

  /**
   * Filtering keeps relative order: two kept elements appear in the result
   * in the order they had in the input; the results are the positions where they occur.
   */
  lemma FilterKeepsOrder<T>(xs: seq<T>, p: T -> bool, i: nat, j: nat) returns (a: nat, b: nat)
    requires i < j < |xs| && p(xs[i]) && p(xs[j])
    ensures a < b < |Filter(xs, p)|
    ensures Filter(xs, p)[a] == xs[i] && Filter(xs, p)[b] == xs[j]
  {
    var front, back := xs[..j], xs[j..];
    assert xs == front + back;
    FilterConcat(front, back, p);
    var kept := Filter(front, p);
    assert front[i] == xs[i];
    a :| 0 <= a < |kept| && kept[a] == xs[i];
    assert back[0] == xs[j];
    b := |kept|;
  }

  /** A sequence all of whose elements pass is its own filter. */
  lemma {:induction false} FilterAll<T>(xs: seq<T>, p: T -> bool)
    requires forall i :: 0 <= i < |xs| ==> p(xs[i])
    ensures Filter(xs, p) == xs
    decreases |xs|
  {
    if |xs| > 0 {
      FilterAll(xs[1..], p);
    }
  }
}

=== FILE: strings.dfy ===
/**
 * Character classes and string functions of the JavaScript runtime that the
 * source relies on: `\s`, `.`, `String.prototype.trim`, `split`, `join`,
 * and decimal rendering of numbers.
 */
module Strings {
  import opened Wrappers

  // ---------------------------------------------------------------------------
  // Character classes
  // ---------------------------------------------------------------------------

  /** JavaScript's WhiteSpace and LineTerminator code points: what `\s` matches and `trim` strips. */
  predicate IsWhitespace(c: char) {
    || c == '\t' || c == '\n' || c == '\U{000B}' || c == '\U{000C}' || c == '\r' || c == ' '
    || c == '\U{00A0}' || c == '\U{1680}' || ('\U{2000}' <= c && c <= '\U{200A}')
    || c == '\U{2028}' || c == '\U{2029}' || c == '\U{202F}' || c == '\U{205F}'
    || c == '\U{3000}' || c == '\U{FEFF}'
  }

  /** The characters a regular-expression `.` does not match (no `s` flag). */
  predicate IsLineTerminator(c: char) {
    c == '\n' || c == '\r' || c == '\U{2028}' || c == '\U{2029}'
  }

  predicate IsDigit(c: char) {
    '0' <= c <= '9'
  }

  predicate AllWhitespace(s: string) {
    forall i :: 0 <= i < |s| ==> IsWhitespace(s[i])
  }

  predicate NoWhitespace(s: string) {
    forall i :: 0 <= i < |s| ==> !IsWhitespace(s[i])
  }

  predicate NoLineTerminator(s: string) {
    forall i :: 0 <= i < |s| ==> !IsLineTerminator(s[i])
  }

  predicate AllDigits(s: string) {
    forall i :: 0 <= i < |s| ==> IsDigit(s[i])
  }

  // ---------------------------------------------------------------------------
  // Trimming
  // ---------------------------------------------------------------------------

  /** `s` without its leading whitespace. */
  function TrimStart(s: string): (r: string)
    ensures |r| <= |s| && r == s[|s| - |r|..]
    ensures AllWhitespace(s[..|s| - |r|])
    ensures |r| > 0 ==> !IsWhitespace(r[0])
    decreases |s|
  {
    if |s| > 0 && IsWhitespace(s[0]) then
      var r := TrimStart(s[1..]);
      assert s[..|s| - |r|] == [s[0]] + s[1..][..|s| - 1 - |r|];
      r
    else s
  }

  /** `s` without its trailing whitespace. */
  function TrimEnd(s: string): (r: string)
    ensures |r| <= |s| && r == s[..|r|]
    ensures AllWhitespace(s[|r|..])
    ensures |r| > 0 ==> !IsWhitespace(r[|r| - 1])
    decreases |s|
  {
    if |s| > 0 && IsWhitespace(s[|s| - 1]) then
      var r := TrimEnd(s[..|s| - 1]);
      assert s[|r|..] == s[..|s| - 1][|r|..] + [s[|s| - 1]];
      r
    else s
  }

  /** `String.prototype.trim`: empty exactly when the input is all whitespace. */
  function Trim(s: string): (r: string)
    ensures r == "" <==> AllWhitespace(s)
    ensures |r| > 0 ==> !IsWhitespace(r[0]) && !IsWhitespace(r[|r| - 1])
  {
    var t := TrimStart(s);
    var r := TrimEnd(t);
    assert t == "" ==> AllWhitespace(s) by {
      if t == "" {
        assert s[..|s| - |t|] == s;
      }
    }
    r
  }

  /** The `token.trim() !== ""` test. */
  predicate IsBlank(s: string) {
    Trim(s) == ""
  }

  // ---------------------------------------------------------------------------
  // Prefixes and occurrences
  // ---------------------------------------------------------------------------

  predicate OccursAt(s: string, pat: string, k: nat) {
    k + |pat| <= |s| && s[k..k + |pat|] == pat
  }

  predicate Contains(s: string, pat: string) {
    exists k: nat :: k <= |s| && OccursAt(s, pat, k)
  }

  /** The leftmost occurrence of `pat` in `s` at or after `from`, as a regular-expression search finds it. */
  function IndexOfFrom(s: string, pat: string, from: nat): (r: Option<nat>)
    ensures r.Some? ==> from <= r.value && OccursAt(s, pat, r.value)
    ensures r.Some? ==> forall k: nat :: from <= k < r.value ==> !OccursAt(s, pat, k)
    ensures r.None? ==> forall k: nat :: from <= k ==> !OccursAt(s, pat, k)
    decreases |s| - from
  {
    if from + |pat| > |s| then None
    else if s[from..from + |pat|] == pat then Some(from)
    else IndexOfFrom(s, pat, from + 1)
  }

  /** An occurrence of `pat` in `s` is still one after text is added around `s`. */
  lemma OccursInContext(a: string, s: string, b: string, pat: string, k: nat)
    requires OccursAt(s, pat, k)
    ensures OccursAt(a + s + b, pat, |a| + k)
  {
    assert (a + s + b)[|a| + k..|a| + k + |pat|] == s[k..k + |pat|];
  }

  /** The longest prefix of `s` none of whose characters satisfies `stop` (a greedy `[^…]*`). */
  function TakeUntil(s: string, stop: char -> bool): (r: string)
    ensures r <= s
    ensures forall i :: 0 <= i < |r| ==> !stop(r[i])
    ensures r == s || stop(s[|r|])
    decreases |s|
  {
    if |s| == 0 || stop(s[0]) then "" else [s[0]] + TakeUntil(s[1..], stop)
  }

  /** `TakeUntil` stops at the first stopping character. */
  lemma TakeUntilStopsAt(a: string, b: string, stop: char -> bool)
    requires forall i :: 0 <= i < |a| ==> !stop(a[i])
    requires |b| > 0 && stop(b[0])
    ensures TakeUntil(a + b, stop) == a
  {
    assert (a + b)[|a|] == b[0];
  }

  /** A greedy `\S*` match at the start of `s`. */
  function Token(s: string): (r: string)
    ensures r <= s && NoWhitespace(r)
    ensures r == s || IsWhitespace(s[|r|])
  {
    TakeUntil(s, IsWhitespace)
  }

  /** A greedy `.*` match at the start of `s`. */
  function RestOfLine(s: string): (r: string)
    ensures r <= s && NoLineTerminator(r)
    ensures r == s || IsLineTerminator(s[|r|])
  {
    TakeUntil(s, IsLineTerminator)
  }

  // ---------------------------------------------------------------------------
  // split / join
  // ---------------------------------------------------------------------------

  /** `s.split(sep)` for a one-character separator: always at least one piece. */
  function Split(s: string, sep: char): (parts: seq<string>)
    ensures |parts| >= 1
    ensures forall i :: 0 <= i < |parts| ==> sep !in parts[i]
    ensures parts[0] <= s && (parts[0] == s || s[|parts[0]|] == sep)
    decreases |s|
  {
    if |s| == 0 then [""]
    else
      var rest := Split(s[1..], sep);
      if s[0] == sep then [""] + rest
      else [[s[0]] + rest[0]] + rest[1..]
  }

  /** `parts.join(sep)`. */
  function Join(parts: seq<string>, sep: char): string
    decreases |parts|
  {
    if |parts| == 0 then ""
    else if |parts| == 1 then parts[0]
    else parts[0] + [sep] + Join(parts[1..], sep)
  }

  /** Every piece appears in the joined text; the result is the position where it occurs. */
  lemma {:induction false} JoinShowsPart(parts: seq<string>, sep: char, k: nat) returns (at: nat)
    requires k < |parts|
    ensures OccursAt(Join(parts, sep), parts[k], at)
    decreases k
  {
    var p := parts[0];
    if |parts| == 1 {
      assert p[0..|p|] == p;
      at := 0;
    } else {
      var rest := Join(parts[1..], sep);
      assert Join(parts, sep) == p + [sep] + rest;
      if k == 0 {
        assert (p + [sep] + rest)[0..|p|] == p;
        at := 0;
      } else {
        var i := JoinShowsPart(parts[1..], sep, k - 1);
        assert parts[1..][k - 1] == parts[k];
        OccursInContext(p + [sep], rest, "", parts[k], i);
        assert p + [sep] + rest + "" == Join(parts, sep);
        at := |p| + 1 + i;
      }
    }
  }

  /** Splitting and re-joining gives back the original text. */
  lemma {:induction false} JoinSplit(s: string, sep: char)
    ensures Join(Split(s, sep), sep) == s
    decreases |s|
  {
    if |s| > 0 {
      var rest := Split(s[1..], sep);
      JoinSplit(s[1..], sep);
      if s[0] == sep {
        assert Split(s, sep) == [""] + rest;
        assert ([""] + rest)[1..] == rest;
      } else {
        var parts := Split(s, sep);
        assert parts == [[s[0]] + rest[0]] + rest[1..];
        if |rest| == 1 {
          assert s == [s[0]] + s[1..];
        } else {
          assert parts[1..] == rest[1..];
          assert Join(rest, sep) == rest[0] + [sep] + Join(rest[1..], sep);
          assert s == [s[0]] + s[1..];
        }
      }
    }
  }

  /** Splitting `x + sep + y` where `x` has no separator splits off exactly `x`. */
  lemma {:induction false} SplitAfterPiece(x: string, y: string, sep: char)
    requires sep !in x
    ensures Split(x + [sep] + y, sep) == [x] + Split(y, sep)
    decreases |x|
  {
    if |x| == 0 {
      assert x + [sep] + y == [sep] + y;
      assert ([sep] + y)[1..] == y;
    } else {
      var s := x + [sep] + y;
      assert s[0] == x[0];
      assert s[1..] == x[1..] + [sep] + y;
      SplitAfterPiece(x[1..], y, sep);
      assert [x[0]] + x[1..] == x;
    }
  }

  /** Joining pieces that do not contain the separator and splitting again gives back the pieces. */
  lemma {:induction false} SplitJoin(parts: seq<string>, sep: char)
    requires |parts| >= 1
    requires forall i :: 0 <= i < |parts| ==> sep !in parts[i]
    ensures Split(Join(parts, sep), sep) == parts
    decreases |parts|
  {
    if |parts| == 1 {
      SplitWithoutSeparator(parts[0], sep);
    } else {
      SplitJoin(parts[1..], sep);
      SplitAfterPiece(parts[0], Join(parts[1..], sep), sep);
      assert [parts[0]] + parts[1..] == parts;
    }
  }

  /** A text without the separator splits into itself. */
  lemma {:induction false} SplitWithoutSeparator(s: string, sep: char)
    requires sep !in s
    ensures Split(s, sep) == [s]
    decreases |s|
  {
    if |s| > 0 {
      SplitWithoutSeparator(s[1..], sep);
      assert [s[0]] + s[1..] == s;
    }
  }

  /** Joining with a trailing empty piece appends one separator. */
  lemma {:induction false} JoinTrailingEmpty(parts: seq<string>, sep: char)
    requires |parts| >= 1
    ensures Join(parts + [""], sep) == Join(parts, sep) + [sep]
    decreases |parts|
  {
    if |parts| == 1 {
      assert Join(parts + [""], sep) == parts[0] + [sep] + Join([""], sep);
    } else {
      assert (parts + [""])[1..] == parts[1..] + [""];
      JoinTrailingEmpty(parts[1..], sep);
    }
  }

  // ---------------------------------------------------------------------------
  // Decimal numbers
  // ---------------------------------------------------------------------------

  function DigitValue(c: char): nat
    requires IsDigit(c)
  {
    (c as int) - ('0' as int)
  }

  function DigitChar(d: nat): (c: char)
    requires d < 10
    ensures IsDigit(c) && DigitValue(c) == d
  {
    (('0' as int) + d) as char
  }

  /** Decimal rendering of a number, as a template literal `${n}` produces it. */
  function NatToString(n: nat): (s: string)
    ensures IsNumericIdentifier(s)
    decreases n
  {
    if n < 10 then [DigitChar(n)]
    else NatToString(n / 10) + [DigitChar(n % 10)]
  }

  /** The value of a string of decimal digits. */
  function DigitsValue(s: string): nat
    requires AllDigits(s)
    decreases |s|
  {
    if |s| == 0 then 0
    else 10 * DigitsValue(s[..|s| - 1]) + DigitValue(s[|s| - 1])
  }

  /** A numeric identifier of Semantic Versioning 2.0.0 (item 2): `0` or digits without a leading zero. */
  predicate IsNumericIdentifier(s: string) {
    |s| >= 1 && AllDigits(s) && (|s| == 1 || s[0] != '0')
  }

  /**
   * Reads a numeric identifier; anything else (empty, non-digit, leading
   * zero) is refused. What it reads is spelled exactly as the number renders.
   */
  function ParseNumeric(s: string): (r: Option<nat>)
    ensures r.Some? ==> NatToString(r.value) == s
  {
    if IsNumericIdentifier(s) then
      NumericIsCanonical(s);
      Some(DigitsValue(s))
    else None
  }

  /** Reading is the inverse of rendering: it reads `n` exactly from the rendering of `n`. */
  lemma ParseNumericInvertsRendering(s: string, n: nat)
    ensures ParseNumeric(NatToString(n)) == Some(n)
    ensures ParseNumeric(s) == Some(n) <==> NatToString(n) == s
  {
    NatToStringValue(n);
  }

  /** Reading back a rendered number gives the number. */
  lemma {:induction false} NatToStringValue(n: nat)
    ensures DigitsValue(NatToString(n)) == n
    decreases n
  {
    if n >= 10 {
      var s := NatToString(n);
      NatToStringValue(n / 10);
      assert s[..|s| - 1] == NatToString(n / 10);
    }
  }

  /** A numeric identifier whose first digit is not zero has a positive value. */
  lemma {:induction false} LeadingDigitPositive(s: string)
    requires |s| >= 1 && AllDigits(s) && s[0] != '0'
    ensures DigitsValue(s) >= 1
    decreases |s|
  {
    if |s| > 1 {
      LeadingDigitPositive(s[..|s| - 1]);
    }
  }

  /** Every numeric identifier is the rendering of its value: rendering is the only spelling. */
  lemma {:induction false} NumericIsCanonical(s: string)
    requires IsNumericIdentifier(s)
    ensures NatToString(DigitsValue(s)) == s
    decreases |s|
  {
    if |s| > 1 {
      var front := s[..|s| - 1];
      var d := DigitValue(s[|s| - 1]);
      LeadingDigitPositive(front);
      assert front[0] == s[0];
      NumericIsCanonical(front);
      var n := DigitsValue(s);
      assert n == 10 * DigitsValue(front) + d;
      assert n / 10 == DigitsValue(front) && n % 10 == d;
      assert DigitChar(d) == s[|s| - 1];
      assert front + [s[|s| - 1]] == s;
    }
  }
}

=== FILE: version.dfy ===
/**
 * Derivation of the three tags a release publishes (`getVersionTags`):
 * increment the current version, then name the new major line, the new
 * minor line and the new full version.
 */
module VersionTags {
  import opened Wrappers
  import opened Strings
  import opened SemVer

  /** The `[majorTag, minorTag, fullTag]` triple, e.g. `v2`, `v2.0`, `v2.0.0`. */
  datatype TagTriple = TagTriple(majorTag: string, minorTag: string, fullTag: string) {

    /** The array the source returns, in publishing order. */
    function AsSeq(): seq<string> {
      [majorTag, minorTag, fullTag]
    }
  }

  /** The increment produced no version: `checkNotNull` throws. */
  datatype VersionError = InvalidIncrement(currentVersion: string, releaseType: ReleaseType)

  /**
   * The tags naming version `next`. The full tag reads back as `next`; the
   * minor tag is the major tag followed by the minor number, and the full tag
   * is the minor tag followed by the patch number.
   */
  function TagsOf(next: Version): (t: TagTriple)
    ensures Parse(t.fullTag) == Some(next)
    ensures t.majorTag == "v" + NatToString(next.major)
    ensures t.minorTag == t.majorTag + "." + NatToString(next.minor)
    ensures t.fullTag == t.minorTag + "." + NatToString(next.patch)
  {
    var majorTag := "v" + NatToString(next.major);
    var minorTag := majorTag + "." + NatToString(next.minor);
    var fullTag := minorTag + "." + NatToString(next.patch);
    FullTagParses(next, fullTag);
    TagTriple(majorTag, minorTag, fullTag)
  }

  /** The full tag is `v` followed by the version string `semver.inc` returns. */
  lemma FullTagParses(next: Version, fullTag: string)
    requires fullTag == "v" + NatToString(next.major) + "." + NatToString(next.minor) + "." + NatToString(next.patch)
    ensures Parse(fullTag) == Some(next)
  {
    assert fullTag == "v" + Format(next);
    ParseFormat(next);
  }

  /**
   * The tags of the release that follows `currentVersion` under `releaseType`:
   * an error exactly when the current version does not parse, and otherwise
   * the tags of a version strictly above the current one.
   */
  function GetVersionTags(currentVersion: string, releaseType: ReleaseType): (r: Result<TagTriple, VersionError>)
    ensures r.Err? <==> Parse(currentVersion).None?
    ensures r.Err? ==> r.error == InvalidIncrement(currentVersion, releaseType)
    ensures r.Ok? ==>
      var current := Parse(currentVersion).value;
      && Parse(r.value.fullTag) == Some(Inc(current, releaseType))
      && Less(current, Parse(r.value.fullTag).value)
  {
    match Parse(currentVersion)
    case None => Err(InvalidIncrement(currentVersion, releaseType))
    case Some(current) => Ok(TagsOf(Inc(current, releaseType)))
  }

  /**
   * The three tags form a prefix chain that names one release line: each tag
   * is a prefix of the next, and the major and minor tags read back as the
   * major and minor numbers of the full tag's version.
   */
  lemma TagsShareOneReleaseLine(currentVersion: string, releaseType: ReleaseType)
    requires GetVersionTags(currentVersion, releaseType).Ok?
    ensures var t := GetVersionTags(currentVersion, releaseType).value;
      var next := Parse(t.fullTag).value;
      && t.majorTag <= t.minorTag <= t.fullTag
      && |t.majorTag| < |t.minorTag| < |t.fullTag|
      && t.majorTag[0] == 'v'
      && ParseNumeric(t.majorTag[1..]) == Some(next.major)
      && ParseNumeric(t.minorTag[|t.majorTag| + 1..]) == Some(next.minor)
      && ParseNumeric(t.fullTag[|t.minorTag| + 1..]) == Some(next.patch)
  {
    var t := GetVersionTags(currentVersion, releaseType).value;
    var next := Parse(t.fullTag).value;
    assert t == TagsOf(next);
    TagsOfReadBack(next);
  }

  /** The tags of `next` form a prefix chain whose numerals read back as the numbers of `next`. */
  lemma TagsOfReadBack(next: Version)
    ensures var t := TagsOf(next);
      && t.majorTag <= t.minorTag <= t.fullTag
      && |t.majorTag| < |t.minorTag| < |t.fullTag|
      && t.majorTag[0] == 'v'
      && ParseNumeric(t.majorTag[1..]) == Some(next.major)
      && ParseNumeric(t.minorTag[|t.majorTag| + 1..]) == Some(next.minor)
      && ParseNumeric(t.fullTag[|t.minorTag| + 1..]) == Some(next.patch)
  {
    var t := TagsOf(next);
    assert t.majorTag[1..] == NatToString(next.major);
    assert t.minorTag[|t.majorTag| + 1..] == NatToString(next.minor);
    assert t.fullTag[|t.minorTag| + 1..] == NatToString(next.patch);
    ParseNumericInvertsRendering(NatToString(next.major), next.major);
    ParseNumericInvertsRendering(NatToString(next.minor), next.minor);
    ParseNumericInvertsRendering(NatToString(next.patch), next.patch);
  }

  /** A string that parses is released as the tags of its increment. */
  lemma ReleaseOfParsed(currentVersion: string, current: Version, releaseType: ReleaseType)
    requires Parse(currentVersion) == Some(current)
    ensures GetVersionTags(currentVersion, releaseType) == Ok(TagsOf(Inc(current, releaseType)))
  {
  }

  /** The tags of a version whose numbers are single digits. */
  lemma TagsOfDigits(next: Version, major: char, minor: char, patch: char)
    requires next.major < 10 && next.minor < 10 && next.patch < 10
    requires major == DigitChar(next.major) && minor == DigitChar(next.minor) && patch == DigitChar(next.patch)
    ensures TagsOf(next) == TagTriple(['v', major], ['v', major, '.', minor], ['v', major, '.', minor, '.', patch])
  {
    var t := TagsOf(next);
    assert t.majorTag == ['v', major];
    assert t.minorTag == ['v', major, '.', minor];
  }

  /** The version string of the unit tests, `1.2.3`, parses. */
  lemma OneTwoThreeParses()
    ensures Parse("1.2.3") == Some(Version(1, 2, 3))
  {
    assert Format(Version(1, 2, 3)) == "1.2.3";
    ParseFormat(Version(1, 2, 3));
  }

  /** A patch release of `1.2.3`. */
  lemma PatchReleaseOfOneTwoThree()
    ensures GetVersionTags("1.2.3", Patch) == Ok(TagTriple("v1", "v1.2", "v1.2.4"))
  {
    OneTwoThreeParses();
    ReleaseOfParsed("1.2.3", Version(1, 2, 3), Patch);
    TagsOfDigits(Version(1, 2, 4), '1', '2', '4');
  }

  /** A minor release of `1.2.3`. */
  lemma MinorReleaseOfOneTwoThree()
    ensures GetVersionTags("1.2.3", Minor) == Ok(TagTriple("v1", "v1.3", "v1.3.0"))
  {
    OneTwoThreeParses();
    ReleaseOfParsed("1.2.3", Version(1, 2, 3), Minor);
    TagsOfDigits(Version(1, 3, 0), '1', '3', '0');
  }

  /** A major release of `1.2.3`. */
  lemma MajorReleaseOfOneTwoThree()
    ensures GetVersionTags("1.2.3", Major) == Ok(TagTriple("v2", "v2.0", "v2.0.0"))
  {
    OneTwoThreeParses();
    ReleaseOfParsed("1.2.3", Version(1, 2, 3), Major);
    TagsOfDigits(Version(2, 0, 0), '2', '0', '0');
  }

  /** The first release of a repository starts from `v0.0.0`. */
  lemma FirstMinorRelease()
    ensures GetVersionTags("v0.0.0", Minor) == Ok(TagTriple("v0", "v0.1", "v0.1.0"))
  {
    ParseFormat(Origin);
    assert "v0.0.0" == "v" + Format(Origin);
    ReleaseOfParsed("v0.0.0", Origin, Minor);
    TagsOfDigits(Version(0, 1, 0), '0', '1', '0');
  }
}

=== FILE: wrappers.dfy ===
/** Option and Result: the model's stand-ins for `null` results and thrown errors. */
module Wrappers {

  datatype Option<+T> = None | Some(value: T) {

    /** The value, or `default` when there is none (a destructuring default in the source). */
    function GetOr(default: T): T {
      match this
      case Some(v) => v
      case None => default
    }
  }

  /** `Err` stands for an exception thrown by the source; `Ok` for a normal return. */
  datatype Result<+T, +E> = Ok(value: T) | Err(error: E)
}
